=== FILE: README.md ===
# bcmath-extended `Number`: integer and string algorithms in Dafny

This project models the static algorithms of `src/Number.php` from
bcmath-extended, a PHP library that extends the BCMath `Number` type. The
algorithms covered run on decimal integers, digit strings and numeric text:

- **Base conversion** (`BaseConversion`). `dec2bin` turns a non-negative
  integer into a big-endian digit string in any base from 2 to 256. `bin2dec`
  reads such a string back. `decBaseHelper` checks the base, and
  `alignBinLength` left-pads with zero bytes.
- **Bitwise engine** (`Bitwise`). `bitAnd`, `bitOr` and `bitXor` work through
  `bitOperatorHelper`. Each operand's magnitude is converted to base-256
  bytes and the two are padded to a common width. A negative operand is
  negated by `recalculateNegative`. The bytes are then combined, and a
  negative result is negated back. The engine is modelled exactly as written
  (`BitOperatorHelper`, `RecalculateNegative`). It is modelled a second time
  in corrected form (`BitOperator`, `Negate`), and the corrected form is
  proved equal to `IntBitOp`. `IntBitOp` is an independent definition of
  two's-complement AND/OR/XOR on unbounded integers, built from floor
  division by 256.
- **Hexadecimal** (`Hex`). `hexdec` folds a hex text as 16 · hexdec(prefix) +
  last digit, after removing every "0x" from the prefix. `dechex` appends
  the digit of n mod 16 to dechex(n div 16).
- **Numeric text** (`NumericString`, `Decimals`):
  - the string helpers `isFloat`, `isNegative` and `getDecimalsLength`;
  - `abs`, `trimTrailingZeroes` and `formatTrailingZeroes`, which work on
    the text of a number and read the result back as a number;
  - the decimals of the primitive arbitrary-precision type, as an integer
    number of units of 10^-scale together with their text. The primitive
    prints a number in one canonical way: "-0", "00" and "007" print as
    "0", "0" and "7", and the scale is kept.
- **Scientific notation** (`Scientific`). This is the branch of
  `convertToNumber` that expands "mEe" text. It multiplies or divides the
  mantissa by 10^e at scale e + decimals(mantissa), and that scale is exact.
- **Reducers and guards** (`Reducers`):
  - `max` and `min` over `parseValues`;
  - `fact`;
  - the argument checks of `powMod`;
  - the formula a − m · floor(a / m) of `modulo`.

Errors are values: each `InvalidArgumentException` the code throws is a
constructor of `Wrappers.Error`, returned in a `Result`.

In several places the code calls the instance methods `add`, `mul`,
`div` and `mod` statically:

- `self::mod`/`self::div` in `dec2bin`;
- `self::add`/`self::mul` in `bin2dec`;
- `static::add`/`static::mul` in `hexdec`;
- `static::div`/`static::mod` in `dechex`;
- `static::div` and `static::mul` in the scientific-notation branch of
  `convertToNumber`.

The model gives these calls their evident meaning. In the integer
algorithms that is exact integer arithmetic at scale 0; on the non-negative
operands these paths see, truncating and Euclidean division agree. In the
scientific-notation branch it is the primitive's product and quotient at
the requested scale, with the digits beyond it dropped. The static `pow`
and `compare` that the same algorithms call are read the same way: with a
non-negative integer exponent `pow` is the primitive's exact power, and
`compare` is the comparison of the two numbers.

## Model

| member | source | states |
|---|---|---|
| BaseConversion.DecBaseHelper | src/Number.php:684-697 | Succeeds exactly when 2 ≤ base ≤ 256, returning the base; otherwise fails with `InvalidBase(base)` |
| BaseConversion.Dec2Bin | src/Number.php:660-679 | On a non-negative integer: fails exactly for an invalid base; otherwise returns digits all below the base with no leading zero digit, and the single digit 0 exactly for 0 |
| BaseConversion.Bin2Dec | src/Number.php:745-764 | Fails exactly for an invalid base; on a string of valid digits the value is below base^length |
| BaseConversion.Dec2BinRoundTrip | src/Number.php:660-679 | bin2dec(dec2bin(n, base), base) == n for every n ≥ 0 and valid base |
| BaseConversion.Bin2DecRoundTrip | src/Number.php:745-764 | dec2bin(bin2dec(s, base), base) == s for every canonical digit string |
| BaseConversion.DigitsInjective | src/Number.php:660-679 | Two numbers have the same digit string exactly when they are equal |
| BaseConversion.AlignBinLength | src/Number.php:725-728 | The result has length max(length, \|s\|), ends with s, and every byte before s is a zero byte |
| BaseConversion.AlignPreservesValue | src/Number.php:725-728 | Left-padding with zero bytes does not change the number a digit string stands for |
| Decimals.IsFloatScale | src/Number.php:311-314 | On numeric text, `isFloat` holds exactly when the number's scale is positive |
| Decimals.IsNegativeSign | src/Number.php:545-548 | On numeric text, `isNegative` agrees with the sign of the number: the value is below zero exactly when the text starts with '-' and the number is not zero, and above zero exactly when the text has no '-' and the number is not zero |
| Decimals.Abs | src/Number.php:714-723 | The result has the magnitude of the number's units and the same scale |
| Decimals.AbsValue | src/Number.php:714-723 | The result is the number or its negation, is never below zero, and its text never starts with '-' |
| NumericString.GetDecimalsLength | src/Number.php:302-309 | With a '.', the result counts exactly the characters after the last '.'; without one it is 0 |
| NumericString.TrimText | src/Number.php:393-399 | The string steps alone: the text never ends in '.'; non-empty text without '.' is unchanged; otherwise it is a prefix of the input, or "0" for input made only of '0' and '.', and every removed character is '0' or '.'. With a '.', the trimming stops where the two `rtrim` calls stop: the removed tail is '.'s followed by '0's, and a kept text ending in '0' lost a '.' (so "10.0" gives "10", not "1") |
| NumericString.RTrimPair | src/Number.php:395-398 | Stripping '0's and then '.'s from text with a '.' removes a run of '.'s followed by a run of '0's; a kept text ending in '0' lost at least one '.'; nothing is kept only for text starting with '.' |
| NumericString.TrimTextIdempotent | src/Number.php:393-399 | On text with at most one '.', the string steps leave a result with a '.' not ending in '0', and applying them again changes nothing |
| Decimals.TrimTrailingZeroes | src/Number.php:391-402 | The constructor refuses the input exactly when the text left by the string steps is not a number, with the malformed-number error; otherwise the result is the primitive's own text of the number that text stands for |
| Decimals.TrimTrailingZeroesValue | src/Number.php:391-402 | On numeric text the result stands for the same number, at a scale no larger, in shortest form (no scale, or a last digit that is not 0) |
| Decimals.TrimmedUnique | src/Number.php:391-402 | Two numbers in shortest form are the same number exactly when they have the same value, so the trimmed form of a number is unique |
| Decimals.TrimTrailingZeroesIdempotent | src/Number.php:391-402 | On numeric text, trimming the result again gives the same result |
| Decimals.FormatTrailingZeroes | src/Number.php:382-389 | With the trim flag off the number is returned unchanged; with it on, the same value at a scale no larger, in shortest form |
| NumericString.IntToStringRoundTrip | src/Number.php:655-657 | The printed text of an integer is canonical and parses back to that integer |
| NumericString.IntValueRoundTrip | src/Number.php:655-657 | Canonical integer text, parsed and printed, is the same text |
| Decimals.ParseRender | src/Number.php:357-380 | The text of a decimal is numeric and parses back to the same units and scale |
| Decimals.ConvertToNumber | src/Number.php:276-300 | On numeric text, the converted text is numeric, stands for the same units and scale, and is the primitive's own text of that number |
| Decimals.ConvertedText | src/Number.php:376-379 | The converted text has a '.' exactly for a positive scale and a leading '-' exactly for a number below zero, and at scale 0 it is the canonical text of the integer |
| Decimals.ConvertInteger | src/Number.php:376-379 | Canonical integer text reads as that integer at scale 0 and is unchanged by the conversion |
| Decimals.ConvertZeroTexts | src/Number.php:376-379 | Every way of writing zero ("-0", "00", "-0.00" …) converts to the primitive's text of zero, which has no '-' |
| Decimals.DecimalsLengthIsScale | src/Number.php:302-309 | On numeric text, `getDecimalsLength` is the scale of the decimal the text stands for |
| Scientific.ExpandAtValue | src/Number.php:287-297 | The value computed is the mantissa divided by 10^e for a '-' exponent, and multiplied by 10^e otherwise |
| Scientific.ExpandExact | src/Number.php:287-297 | At scale e + decimals(mantissa) nothing is truncated. A '-' exponent keeps the mantissa's units and adds e to the scale; any other sign scales the units by 10^e for the value and again for the longer scale |
| Scientific.Expand | src/Number.php:288-295 | The number computed before formatting has scale e + decimals(mantissa) |
| Scientific.ConvertScientificValue | src/Number.php:287-297 | The number the branch produces is exactly mantissa ÷ 10^e or mantissa × 10^e, whatever the trim flag |
| Scientific.ConvertScientificScale | src/Number.php:288-296 | Untrimmed, the produced number's text has exactly e + decimals(mantissa) digits after the '.'; trimmed, no more than that, in shortest form |
| Hex.StripAll0x | src/Number.php:571 | The result is no longer than the input, and text without an 'x' is returned unchanged |
| Hex.StripAll0xHead | src/Number.php:571 | Text with no 'x' and no final '0' can neither hold nor begin a "0x": it is kept and the removal goes on after it |
| Hex.StripAll0xSplit | src/Number.php:571 | A "0x" after such text is removed, and the text on both sides is kept (an empty head covers a leading "0x") |
| Hex.HexValueInnerPrefix | src/Number.php:569-586 | A "0x" after such text and before the last digit does not change the value: "ff0xff" reads as "ffff" |
| Hex.HexValue | src/Number.php:569-586 | The value modulo 16 is the digit value of the last character, and text of at most one character gives a value below 16 |
| Hex.Hexdec | src/Number.php:569-586 | The result is canonical decimal text (no sign, no leading '0' except "0" itself) whose value is the hex value of the input |
| Hex.Dechex | src/Number.php:588-598 | The result is non-empty and made only of hex digits |
| Hex.HexValuePositional | src/Number.php:569-586 | On text without 'x', the fold 16 · prefix + last digit is the positional base-16 value of the digits |
| Hex.HexdecDechex | src/Number.php:569-598 | hexdec(dechex(n)) == n for every n ≥ 0, as a value and as decimal text |
| Hex.DechexHexdec | src/Number.php:569-598 | dechex(hexdec(s)) == s for every canonical lower-case hex text |
| Hex.DechexCanonical | src/Number.php:588-598 | dechex prints lower-case hex with no leading '0', and prints "0" exactly for 0 |
| Hex.HexPrefixIgnored | src/Number.php:571 | A leading "0x" does not change the value |
| Hex.StripUpper | src/Number.php:571 | Removing every "0x" commutes with upper-casing the hex letters a-f |
| Hex.HexdecCaseInsensitive | src/Number.php:569-586 | Upper-casing the hex letters of any text changes neither its value nor the text `hexdec` returns |
| Bitwise.Complement | src/Number.php:732-733 | XOR with a string of 0xFF bytes turns every byte b into 255 − b and keeps the length |
| Bitwise.IncrementFromRight | src/Number.php:734-740 | Scanning from the right, only the first byte that is not 0xFF is incremented; all other bytes are kept |
| Bitwise.RecalculateNegative | src/Number.php:730-743 | Same length. The rightmost non-zero byte b becomes 256 − b and every other byte b becomes 255 − b, so zero bytes to its right stay 0xFF |
| Bitwise.RecalculateNegativeNonZero | src/Number.php:730-743 | The as-written negation of a non-empty string never has value 0 |
| Bitwise.RecalculateNegativeOverflow | src/Number.php:736-739 | On bytes 01 00, the as-written loop gives FF FF where two's complement gives FF 00 |
| Bitwise.Negate | src/Number.php:730-743 | The corrected negation keeps the width and maps value v > 0 to 256^width − v, and 0 to 0 |
| Bitwise.IntBitOpSign | src/Number.php:638-649 | The reference result is negative exactly as the sign rule says: both operands for AND, either for OR, exactly one for XOR |
| Bitwise.BitOperatorHelper | src/Number.php:613-658 | As written, from the checks on, on operands already converted: fails exactly when an operand has a '.', the left operand checked first with its own error |
| Bitwise.BitOperatorHelperSign | src/Number.php:638-657 | As written, on integer operands the result is canonical integer text, negative exactly as the sign rule says |
| Bitwise.BitOperatorHelperNonNegative | src/Number.php:619-657 | As written, on non-negative integer operands the result is the two's-complement AND/OR/XOR of their values |
| Bitwise.CombineNonNegative | src/Number.php:623-655 | With no negative operand, the byte pipeline as written computes the bitwise result of the two magnitudes |
| Bitwise.BitOperator | src/Number.php:613-658 | Corrected engine on converted operands: same error behaviour as the as-written one |
| Bitwise.CombineCorrect | src/Number.php:619-655 | With one extra sign byte and a carrying negation, the byte pipeline yields the sign and magnitude of the reference result for every pair of signed operands |
| Bitwise.BitOperatorCorrect | src/Number.php:605-658 | For all integers x and y, the corrected engine applied to their text prints the reference AND/OR/XOR of x and y |
| Bitwise.HelperContract | src/Number.php:613-658 | As written, on converted integer operands the result is canonical integer text with the sign rule's sign, and on non-negative integer operands it is the bitwise result of their values |
| Bitwise.ConvertedContract | src/Number.php:605-658 | As written, with both operands converted first: fails exactly when a number has a positive scale (the left one first); on integers the result is canonical integer text whose sign follows the sign rule on the numbers' signs, so "-0" counts as 0; on non-negative integers it is the bitwise result of the values |
| Bitwise.ConvertedCorrect | src/Number.php:605-658 | The corrected engine with both operands converted first: fails exactly on a positive scale, and for every pair of integers is the two's-complement result of their values |
| Bitwise.BitAnd | src/Number.php:600-611 | As written, operands converted first: fails exactly on a fraction (the left operand first); on integers the result is canonical integer text, negative exactly when both numbers are; on non-negative integers it is the AND of their values |
| Bitwise.BitOr | src/Number.php:766-769 | As written, through `bitOperatorHelper`, which converts the operands first: fails exactly on a fraction; on integers the result is canonical integer text, negative exactly when either number is; on non-negative integers it is the OR of their values |
| Bitwise.BitXor | src/Number.php:771-774 | As written, through `bitOperatorHelper`, which converts the operands first: fails exactly on a fraction; on integers the result is canonical integer text, negative exactly when one number is; on non-negative integers it is the XOR of their values |
| Bitwise.BitAndCorrected | src/Number.php:600-611 | `bitAnd` on the corrected engine: fails exactly on a fraction; for every pair of integers the result is the two's-complement AND of their values |
| Bitwise.BitOrCorrected | src/Number.php:766-769 | `bitOr` on the corrected engine: fails exactly on a fraction; for every pair of integers the result is the two's-complement OR of their values |
| Bitwise.BitXorCorrected | src/Number.php:771-774 | `bitXor` on the corrected engine: fails exactly on a fraction; for every pair of integers the result is the two's-complement XOR of their values |
| Bitwise.BitAndExample | src/Number.php:600-603 | bitAnd("5", "3") is "1" |
| Bitwise.CombineNegativeAndExample | src/Number.php:619-655 | As written, -1 AND 1 prepares -1 as the byte 0xFF and yields the non-negative magnitude 1 |
| Bitwise.BitAndNegativeExample | src/Number.php:600-603 | bitAnd("-1", "1") is "1" |
| Bitwise.BitOrOverflowCounterexample | src/Number.php:730-743 | bitOr("-256", "0") is "-1"; the reference OR is -256, which the corrected bitOr returns |
| Bitwise.BitXorWidthCounterexample | src/Number.php:623-629 | bitXor("-1", "255") is "-255"; the reference XOR is -256, which the corrected bitXor returns |
| Reducers.Max | src/Number.php:468-490 | null exactly for no arguments or an empty array first. With an array first, the first greatest of its elements, whatever follows. Otherwise the first greatest of all the converted arguments |
| Reducers.Min | src/Number.php:483-508 | null exactly for no arguments or an empty array first. With an array first, the first least of its elements, whatever follows. Otherwise the first least of all the converted arguments |
| Reducers.FirstMaxUnique | src/Number.php:468-481 | The first greatest element is determined by the list, position included |
| Reducers.FirstMinUnique | src/Number.php:495-508 | The first least element is determined by the list, position included |
| Reducers.FactorialLoop | src/Number.php:561-564 | Starting from 1 and multiplying by 2, 3, …, n gives n! (1 for 0 and 1) |
| Reducers.FactorialDivisible | src/Number.php:561-564 | Every k from 1 to n divides the value the loop builds |
| Reducers.Fact | src/Number.php:550-567 | On the converted number: a positive scale gives the fraction error; otherwise a number below zero gives the negative error ("-0" is 0 and is not); otherwise the result is the text of n! |
| Reducers.PowModGuard | src/Number.php:519-525 | The negative-exponent error is returned exactly for a negative exponent; the only other errors are the zero-modulus error and the constructor's refusal of a malformed modulus |
| Reducers.TrimsToZero | src/Number.php:391-402 | Numeric text trims to "0" exactly when it stands for zero |
| Reducers.PowModGuardComplete | src/Number.php:519-525 | For a numeric modulus and a non-negative exponent, the zero-modulus error is returned exactly when the modulus stands for zero, and otherwise there is no error |
| Reducers.PowModGuardZeroTexts | src/Number.php:523-525 | Every way of writing zero ("00", "-0", "000.000" …) is rejected as a zero modulus |
| Reducers.Modulo | src/Number.php:141-147 | Fails with division by zero exactly for a zero modulus; otherwise the result is at the larger of the two scales |
| Reducers.ModuloRange | src/Number.php:141-147 | The remainder lies between 0 and the modulus (0 included, the modulus excluded), with the sign of the modulus, and differs from the dividend by a whole multiple of it |
| Reducers.ModuloUnique | src/Number.php:141-147 | Any remainder in that range that differs from the dividend by a whole multiple of the modulus is the one `modulo` returns |
| Reducers.ModuloExamples | src/Number.php:141-147 | −7 mod 3 is 2, 7 mod −3 is −2, and 5.5 mod 2 is 1.5 |

## Left out

- `exp`, `log`, `pow` and `powFractional` are not modelled. They truncate at a fixed scale of 100, and `log` starts from a native float logarithm, so only approximate properties exist.
- `parseToNumber` is not modelled: neither its `filter_var` sanitisation nor the regular-expression match of `convertToNumber`. `Scientific.SciParts` holds the three captures of that match.
- Numbers enter the model as numeric text or as decimals; all other input is out of scope.
- `convertToNumber` is modelled as `Decimals.ConvertToNumber` on numeric text only: the number it stands for, printed by the primitive. `bitOperatorHelper` and `fact` convert their operands through it, and `powMod` takes its exponent as a number. Its integer and `BCMathNumber` arguments and its scientific-notation branch are not part of that member; the scientific branch is `Scientific.ConvertScientific`.
- The instance arithmetic wrappers are left out (add, sub, mul, div, divmod, power, powerModulo, sqrt, round, floor, ceil, roundHalfEven/Up/Down, and `mod` as an alias of `modulo`). They delegate directly to the primitive decimal type.
- `Number::rand` and `src/Random.php` are left out; their behaviour is a random draw.
- The global scale and the trim flag (`bcscale`, `$currentScale`, `$trimTrailingZeroes`) are static state. The model passes the trim flag as an explicit argument, and the scale where it is needed.
- `src/Builders/*`, `src/Interfaces/Builder.php` and `src/Exceptions/*` are construction front-ends and message formatting; they are not part of this model.
- The tests are not part of this model.
- The primitive decimal type itself (`BcMath\Number`) is not part of this model. `Decimals.Decimal` and `Decimals.Render` stand for its value and its text.
- Reducers.Modulo: takes the exact floor of a / m. The primitive first divides at a finite scale, truncating toward zero. For a negative quotient whose fractional part lies beyond that scale (such as −1.000…01) this gives a different floor.
- Reducers.Fact: the loop bound is `(int)(string)$number`, a 64-bit PHP integer; the model uses an unbounded natural number.
- Reducers.PowModGuard: models only the argument checks; the modular power after them is delegated to the primitive and is not modelled.
- Hex.Dechex: modelled for non-negative integers only; the source gives no meaning to negative or fractional input.
- Reducers.Max: an array that is not the first argument is cast to the text "Array", which converts to 0, and the model uses 0 directly. PHP's warning is not modelled. The same holds for `Min`.
- Decimals.TrimTrailingZeroes: `IsNumeric` stands for the primitive constructor's grammar, and is stricter: text such as ".5" or "+1" is refused by the model and may be accepted by the primitive. `MalformedNumber` stands for the constructor's `ValueError`.
- Decimals.TrimTrailingZeroesIdempotent: holds on numeric text only. On other text it can fail: "1.50.0" trims to "1.50", which trims again to "1.5".
- Decimals.Abs: takes the number that `Decimals.ConvertToNumber` stands for, which is the argument after the conversion of line 716.
- BaseConversion.Dec2Bin: the input is a non-negative integer, standing for the canonical text `bitOperatorHelper` passes (the `(string)` of an absolute value). The source tests the text against '0'; any other spelling of zero, such as "00", "-0" or "0.0", skips that test and the loop, so the source returns the empty string where the model returns the single digit 0. Negative and fractional text is not modelled either.
- Hex.Hexdec: text is modelled as a sequence of characters, but PHP's `substr` counts bytes. The two agree only on ASCII text; for other text, such as "1é", the source splits a character and the model does not.
- Bytes are natural numbers below `MAX_BASE` (256), not PHP string characters. `chr`/`ord` are the identity in this representation.

## Findings

| source | as written | input that shows it | evidently intended | confidence | as-written member | corrected member |
|---|---|---|---|---|---|---|
| src/Number.php:736-739 | In the increment loop of `recalculateNegative`, a complemented byte of 0xFF would overflow; the loop leaves it at 0xFF and moves left, where two's complement writes 0x00 and carries. So bytes 01 00 negate to FF FF instead of FF 00 | bitOr("-256", "0") returns -1 | -256, the two's-complement OR | high, proved in the model; not executed | Bitwise.BitOrOverflowCounterexample | Bitwise.BitOrCorrected |
| src/Number.php:623-629 | Operands are padded only to the longer magnitude's byte length, so there is no byte for the sign, and a negative result that needs one more byte is read back wrongly | bitXor("-1", "255") returns -255 | -256, the two's-complement XOR | high, proved in the model; not executed | Bitwise.BitXorWidthCounterexample | Bitwise.BitXorCorrected |

=== FILE: base_conversion.dfy ===
/** Conversion between non-negative integers and big-endian digit strings
    in a base from 2 to 256 (`dec2bin`, `bin2dec`, `decBaseHelper`,
    `alignBinLength` of src/Number.php). A digit string is a `seq<nat>`;
    in base 256 it is the byte string the library builds with `chr`.
    The library runs both conversions at scale 0, so every division here is
    exact integer division of non-negative operands. */
module BaseConversion {
  import opened Wrappers

  /** Largest accepted base; also the number of values of one byte. */
  const MaxBase: nat := 256

  function Pow(b: nat, e: nat): (r: nat)
    ensures b >= 1 ==> r >= 1
  {
    if e == 0 then 1 else b * Pow(b, e - 1)
  }

  lemma {:induction false} PowAdd(b: nat, e1: nat, e2: nat)
    ensures Pow(b, e1 + e2) == Pow(b, e1) * Pow(b, e2)
    decreases e1
  {
    if e1 > 0 {
      var p1, p2 := Pow(b, e1 - 1), Pow(b, e2);
      PowAdd(b, e1 - 1, e2);
      assert Pow(b, e1 + e2) == b * Pow(b, e1 - 1 + e2);
      assert Pow(b, e1) == b * p1;
      MulAssoc(b, p1, p2);
    }
  }

  lemma MulAssoc(a: int, b: int, c: int)
    ensures a * (b * c) == (a * b) * c
  {
  }

  lemma {:induction false} PowMonotone(b: nat, e1: nat, e2: nat)
    requires b >= 1 && e1 <= e2
    ensures Pow(b, e1) <= Pow(b, e2)
    decreases e2
  {
    if e1 < e2 {
      var p := Pow(b, e2 - 1);
      PowMonotone(b, e1, e2 - 1);
      assert Pow(b, e2) == b * p;
      MulAtLeast(b, p);
    }
  }

  /** Every element of `s` is a digit of `base`. */
  predicate IsDigits(s: seq<nat>, base: nat) {
    forall i | 0 <= i < |s| :: s[i] < base
  }

  /** The positional sum `bin2dec` accumulates:
      the sum of s[i] * base^(|s|-1-i). */
  function Value(s: seq<nat>, base: nat): nat
  {
    if |s| == 0 then 0 else s[0] * Pow(base, |s| - 1) + Value(s[1..], base)
  }

  /** Appending a digit on the right is one Horner step. */
  lemma {:induction false} ValueSnoc(s: seq<nat>, d: nat, base: nat)
    ensures Value(s + [d], base) == Value(s, base) * base + d
    decreases |s|
  {
    var t := s + [d];
    if |s| == 0 {
      assert t[1..] == [];
    } else {
      assert t[0] == s[0] && t[1..] == s[1..] + [d];
      ValueSnoc(s[1..], d, base);
      var p := Pow(base, |s| - 1);
      assert Pow(base, |s|) == base * p;
      assert Value(t, base) == s[0] * (base * p) + Value(s[1..] + [d], base);
      HornerStep(s[0], p, Value(s[1..], base), base);
    }
  }

  lemma HornerStep(a: nat, p: nat, v: nat, base: nat)
    ensures a * (base * p) + v * base == (a * p + v) * base
  {
  }

  lemma DigitBound(a: nat, p: nat, v: nat, base: nat)
    requires a < base && v < p
    ensures a * p + v < base * p
  {
    assert a * p <= (base - 1) * p;
  }

  /** A digit string of length k is worth less than base^k. */
  lemma {:induction false} ValueBound(s: seq<nat>, base: nat)
    requires base >= 1 && IsDigits(s, base)
    ensures Value(s, base) < Pow(base, |s|)
    decreases |s|
  {
    if |s| > 0 {
      ValueBound(s[1..], base);
      var p := Pow(base, |s| - 1);
      assert Pow(base, |s|) == base * p;
      DigitBound(s[0], p, Value(s[1..], base), base);
    }
  }

  /** A string of `k` zero digits. */
  function Zeros(k: nat): (r: seq<nat>)
    ensures |r| == k && forall i | 0 <= i < k :: r[i] == 0
  {
    seq(k, i => 0)
  }

  lemma {:induction false} ValueZerosPrefix(k: nat, s: seq<nat>, base: nat)
    ensures Value(Zeros(k) + s, base) == Value(s, base)
    decreases k
  {
    if k > 0 {
      var t := Zeros(k) + s;
      assert t[0] == 0 && t[1..] == Zeros(k - 1) + s;
      ValueZerosPrefix(k - 1, s, base);
    } else {
      assert Zeros(k) + s == s;
    }
  }

  /** The digit loop of `dec2bin`: while the number is not zero, prepend
      number mod base and continue with number div base. */
  function DigitLoop(n: nat, base: nat): (r: seq<nat>)
    requires base >= 2
    ensures IsDigits(r, base)
    ensures n == 0 <==> r == []
    ensures n > 0 ==> r[0] != 0
    decreases n
  {
    if n == 0 then [] else DigitLoop(n / base, base) + [n % base]
  }

  /** The closure `dec2bin` hands to `decBaseHelper`: "0" becomes the single
      zero digit, anything else goes through the loop. */
  function Digits(n: nat, base: nat): (r: seq<nat>)
    requires base >= 2
    ensures |r| >= 1 && IsDigits(r, base)
    ensures r[0] == 0 <==> n == 0
    ensures n == 0 ==> r == [0]
  {
    if n == 0 then [0] else DigitLoop(n, base)
  }

  /** A canonical digit string: non-empty, all digits below `base`, and no
      leading zero digit unless it is the single digit 0. */
  predicate IsCanonical(s: seq<nat>, base: nat) {
    |s| >= 1 && IsDigits(s, base) && (s[0] != 0 || |s| == 1)
  }

  /** The base check of `decBaseHelper`. The scale-0 override it performs
      is implicit: every computation here is exact integer arithmetic. */
  function DecBaseHelper(base: int): (r: Result<nat>)
    ensures r.Ok? <==> 2 <= base <= MaxBase
    ensures r.Ok? ==> r.value == base
    ensures r.Err? ==> r.error == InvalidBase(base)
  {
    if base < 2 || base > MaxBase then Err(InvalidBase(base)) else Ok(base)
  }

  /** `dec2bin`: a non-negative integer as a big-endian digit string. */
  function Dec2Bin(n: nat, base: int): (r: Result<seq<nat>>)
    ensures r.Err? <==> base < 2 || base > MaxBase
    ensures r.Ok? ==> IsCanonical(r.value, base) && (r.value == [0] <==> n == 0)
  {
    match DecBaseHelper(base)
    case Err(e) => Err(e)
    case Ok(b) => Ok(Digits(n, b))
  }

  /** `bin2dec`: the positional value of a digit string. Like the source it
      does not check that each digit is below the base. */
  function Bin2Dec(s: seq<nat>, base: int): (r: Result<nat>)
    ensures r.Err? <==> base < 2 || base > MaxBase
    ensures r.Ok? && IsDigits(s, base) ==> r.value < Pow(base, |s|)
  {
    match DecBaseHelper(base)
    case Err(e) => Err(e)
    case Ok(b) =>
      if IsDigits(s, b) then ValueBound(s, b); Ok(Value(s, b))
      else Ok(Value(s, b))
  }

  lemma {:induction false} DigitLoopValue(n: nat, base: nat)
    requires base >= 2
    ensures Value(DigitLoop(n, base), base) == n
    decreases n
  {
    if n > 0 {
      DigitLoopValue(n / base, base);
      ValueSnoc(DigitLoop(n / base, base), n % base, base);
      DivMod(n, base);
    }
  }

  lemma DivMod(n: nat, base: nat)
    requires base >= 1
    ensures n == (n / base) * base + n % base
  {
  }

  lemma DivModUnique(q: nat, d: nat, base: nat)
    requires d < base
    ensures (q * base + d) / base == q && (q * base + d) % base == d
  {
    var n := q * base + d;
    DivMod(n, base);
    var q', d' := n / base, n % base;
    if q' > q {
      MulAtLeast(q' - q, base);
    } else if q' < q {
      MulAtLeast(q - q', base);
    }
  }

  lemma MulAtLeast(k: nat, base: nat)
    requires k >= 1
    ensures k * base >= base
  {
  }

  lemma DigitsValue(n: nat, base: nat)
    requires base >= 2
    ensures Value(Digits(n, base), base) == n
  {
    if n > 0 {
      DigitLoopValue(n, base);
    }
  }

  /** Round trip one way: bin2dec(dec2bin(n)) == n for every valid base. */
  lemma Dec2BinRoundTrip(n: nat, base: int)
    requires 2 <= base <= MaxBase
    ensures Dec2Bin(n, base).Ok?
    ensures Bin2Dec(Dec2Bin(n, base).value, base) == Ok(n)
  {
    DigitsValue(n, base);
  }

  /** A leading digit that is not zero carries at least base^(k-1). */
  lemma LeadingDigitValue(s: seq<nat>, base: nat)
    requires base >= 1 && |s| >= 1 && s[0] != 0
    ensures Value(s, base) >= Pow(base, |s| - 1) > 0
  {
    assert s[0] * Pow(base, |s| - 1) >= Pow(base, |s| - 1);
  }

  lemma {:induction false} DigitsOfCanonical(s: seq<nat>, base: nat)
    requires base >= 2 && IsCanonical(s, base)
    ensures Digits(Value(s, base), base) == s
    decreases |s|
  {
    var t, d := s[..|s| - 1], s[|s| - 1];
    assert s == t + [d];
    var v := Value(t, base);
    ValueSnoc(t, d, base);
    var n := Value(s, base);
    assert n == v * base + d;
    DivModUnique(v, d, base);
    if |t| == 0 {
      assert v == 0 && n == d;
      if d != 0 {
        assert DigitLoop(n, base) == DigitLoop(0, base) + [d];
      }
    } else {
      assert IsCanonical(t, base);
      LeadingDigitValue(t, base);
      DigitsOfCanonical(t, base);
      assert DigitLoop(n, base) == DigitLoop(v, base) + [d];
    }
  }

  /** Round trip the other way: dec2bin(bin2dec(s)) == s for every canonical
      digit string. */
  lemma Bin2DecRoundTrip(s: seq<nat>, base: int)
    requires 2 <= base <= MaxBase && IsCanonical(s, base)
    ensures Bin2Dec(s, base).Ok?
    ensures Dec2Bin(Bin2Dec(s, base).value, base) == Ok(s)
  {
    DigitsOfCanonical(s, base);
  }

  /** Digit strings of two numbers agree exactly when the numbers do. */
  lemma DigitsInjective(m: nat, n: nat, base: nat)
    requires base >= 2
    ensures Digits(m, base) == Digits(n, base) <==> m == n
  {
    DigitsValue(m, base);
    DigitsValue(n, base);
  }

  /** `alignBinLength`: left-pad with zero digits (`chr(0)`) to `length`;
      a string already that long is returned unchanged, as `str_pad` does. */
  function AlignBinLength(s: seq<nat>, length: int): (r: seq<nat>)
    ensures |r| == if length <= |s| then |s| else length
    ensures r[|r| - |s|..] == s
    ensures forall i | 0 <= i < |r| - |s| :: r[i] == 0
  {
    if length <= |s| then s else Zeros(length - |s|) + s
  }

  /** Padding never changes the number a digit string stands for. */
  lemma AlignPreservesValue(s: seq<nat>, length: int, base: nat)
    ensures Value(AlignBinLength(s, length), base) == Value(s, base)
  {
    if length > |s| {
      ValueZerosPrefix(length - |s|, s, base);
    }
  }
}

=== FILE: bitwise.dfy ===
/** Signed AND / OR / XOR on decimal integers of any size
    (`bitOperatorHelper`, `bitAnd`, `bitOr`, `bitXor`, `recalculateNegative`
    of src/Number.php).

    The library converts each magnitude to a base-256 byte string, pads both
    to a common length, emulates two's complement for negative operands,
    combines the strings byte by byte, and converts back. This module models
    that engine twice:
      - `BitOperatorHelper` exactly as written, with `RecalculateNegative`;
      - `BitOperator`, the corrected engine (one extra sign byte, and a
        negation whose carry writes 0x00), proved equal to `IntBitOp`, an
        independent definition of two's-complement bitwise operations on
        mathematical integers through floor division by 256. */
module Bitwise {
  import opened Wrappers
  import opened BaseConversion
  import opened NumericString
  import opened Decimals

  datatype Operator = And | Or | Xor

  /** A byte string: every element is a byte. */
  predicate IsBytes(s: seq<nat>) {
    IsDigits(s, MaxBase)
  }

  /** Sign of the result: AND is negative when both operands are, OR when
      either is, XOR when exactly one is. */
  predicate SignRule(op: Operator, leftNegative: bool, rightNegative: bool) {
    match op
    case And => leftNegative && rightNegative
    case Or => leftNegative || rightNegative
    case Xor => leftNegative != rightNegative
  }

  /** The byte whose value is `p`, assembled bit by bit from the most
      significant: a route to `p as bv8` that reasons about bits one at a
      time. */
  function ToByte(p: nat): (r: bv8)
    requires p < MaxBase
    ensures r as nat == p
  {
    if p == 0 then 0
    else
      var h := ToByte(p / 2);
      var bit: bv8 := if p % 2 == 1 then 1 else 0;
      h + h + bit
  }

  /** The native operation on one byte. */
  function ByteOp(op: Operator, p: nat, q: nat): (r: nat)
    requires p < MaxBase && q < MaxBase
    ensures r < MaxBase
  {
    var a, b := p as bv8, q as bv8;
    var c := match op
      case And => a & b
      case Or => a | b
      case Xor => a ^ b;
    c as nat
  }

  /** PHP's `&`, `|` and `^` on two strings of equal length. */
  function Zip(op: Operator, a: seq<nat>, b: seq<nat>): (r: seq<nat>)
    requires |a| == |b| && IsBytes(a) && IsBytes(b)
    ensures |r| == |a| && IsBytes(r)
  {
    seq(|a|, i requires 0 <= i < |a| => ByteOp(op, a[i], b[i]))
  }

  /** A byte of zeros or of ones: 0x00 and 0xFF are the identity and the
      absorbing element of each operation. */
  lemma ByteOpConstants(op: Operator)
    ensures ByteOp(op, 0, 0) == 0
    ensures ByteOp(op, 0, 255) == if op == And then 0 else 255
    ensures ByteOp(op, 255, 0) == if op == And then 0 else 255
    ensures ByteOp(op, 255, 255) == if op == Xor then 0 else 255
  {
  }

  lemma BvRoundTrip(a: bv8)
    ensures (a as nat) as bv8 == a
  {
  }

  /** `ToByte` is the native conversion of a byte value. */
  lemma CastIsToByte(p: nat)
    requires p < MaxBase
    ensures p as bv8 == ToByte(p)
  {
    BvRoundTrip(ToByte(p));
  }

  lemma XorWithFF(p: nat)
    requires p < MaxBase
    ensures ByteOp(Xor, p, 255) == 255 - p
  {
    CastIsToByte(p);
    var a := ToByte(p);
    assert a ^ 0xFF == 0xFF - a;
  }

  /** XOR of every byte with 0xFF, the first half of `recalculateNegative`. */
  function Complement(s: seq<nat>): (r: seq<nat>)
    requires IsBytes(s)
    ensures |r| == |s| && IsBytes(r)
    ensures forall i | 0 <= i < |s| :: r[i] == 255 - s[i]
  {
    var r := seq(|s|, i requires 0 <= i < |s| => ByteOp(Xor, s[i], 255));
    assert forall i | 0 <= i < |s| :: r[i] == 255 - s[i] by {
      forall i | 0 <= i < |s| {
        XorWithFF(s[i]);
      }
    }
    r
  }

  /** The increment loop of `recalculateNegative` as written: scanning from
      the right, the first byte whose successor is not 256 is replaced by its
      successor and the scan stops; a byte whose successor would be 256 is
      left as it is. */
  function IncrementFromRight(t: seq<nat>): (r: seq<nat>)
    requires IsBytes(t)
    ensures |r| == |t| && IsBytes(r)
    ensures forall i | 0 <= i < |t| ::
      r[i] == if t[i] != 255 && (forall j | i < j < |t| :: t[j] == 255) then t[i] + 1 else t[i]
  {
    if |t| == 0 then t
    else
      var k := |t| - 1;
      if t[k] + 1 != MaxBase then t[..k] + [t[k] + 1]
      else IncrementFromRight(t[..k]) + [t[k]]
  }

  /** The byte `recalculateNegative` increments: the rightmost non-zero byte
      of its input. */
  predicate IsCarryStop(s: seq<nat>, i: int)
    requires 0 <= i < |s|
  {
    s[i] != 0 && forall j | i < j < |s| :: s[j] == 0
  }

  /** `recalculateNegative` as written. Every byte is complemented; the
      rightmost non-zero input byte becomes 256 minus itself; the zero bytes
      to its right stay 0xFF instead of becoming 0x00. */
  function RecalculateNegative(s: seq<nat>): (r: seq<nat>)
    requires IsBytes(s)
    ensures |r| == |s| && IsBytes(r)
    ensures forall i | 0 <= i < |s| ::
      r[i] == if IsCarryStop(s, i) then 256 - s[i] else 255 - s[i]
  {
    IncrementFromRight(Complement(s))
  }

  /** Adding one with the carry written out: an overflowing byte becomes 0
      and the carry moves left; a carry out of the leftmost byte is lost. */
  function AddOne(t: seq<nat>): (r: seq<nat>)
    requires IsBytes(t)
    ensures |r| == |t| && IsBytes(r)
  {
    if |t| == 0 then t
    else
      var k := |t| - 1;
      if t[k] + 1 != MaxBase then t[..k] + [t[k] + 1]
      else AddOne(t[..k]) + [0]
  }

  /** Two's-complement negation within the width of `s`: complement, then
      add one. This is the corrected `recalculateNegative`; it computes
      256^|s| - value, or 0 for 0. */
  function Negate(s: seq<nat>): (r: seq<nat>)
    requires IsBytes(s)
    ensures |r| == |s| && IsBytes(r)
    ensures Value(s, MaxBase) == 0 ==> Value(r, MaxBase) == 0
    ensures Value(s, MaxBase) > 0 ==> Value(r, MaxBase) == Pow(MaxBase, |s|) - Value(s, MaxBase)
  {
    ComplementValue(s);
    ValueBound(s, MaxBase);
    AddOneValue(Complement(s));
    AddOne(Complement(s))
  }

  lemma ComplementStep(a: nat, p: nat, v: nat)
    ensures (255 - a) * p + (p - 1 - v) == 256 * p - 1 - (a * p + v)
  {
  }

  lemma {:induction false} ComplementValue(s: seq<nat>)
    requires IsBytes(s)
    ensures Value(Complement(s), MaxBase) == Pow(MaxBase, |s|) - 1 - Value(s, MaxBase)
    decreases |s|
  {
    if |s| > 0 {
      var c := Complement(s);
      assert c[1..] == Complement(s[1..]);
      ComplementValue(s[1..]);
      var p := Pow(MaxBase, |s| - 1);
      assert Pow(MaxBase, |s|) == 256 * p;
      ComplementStep(s[0], p, Value(s[1..], MaxBase));
    }
  }

  lemma {:induction false} AddOneValue(t: seq<nat>)
    requires IsBytes(t)
    ensures Value(AddOne(t), MaxBase) ==
      if Value(t, MaxBase) + 1 == Pow(MaxBase, |t|) then 0 else Value(t, MaxBase) + 1
    decreases |t|
  {
    if |t| > 0 {
      var k := |t| - 1;
      var u, d := t[..k], t[k];
      assert t == u + [d];
      ValueSnoc(u, d, MaxBase);
      ValueBound(u, MaxBase);
      assert Pow(MaxBase, |t|) == 256 * Pow(MaxBase, k);
      if d + 1 != MaxBase {
        ValueSnoc(u, d + 1, MaxBase);
      } else {
        AddOneValue(u);
        ValueSnoc(AddOne(u), 0, MaxBase);
      }
    }
  }

  lemma NonZeroDigitValue(s: seq<nat>, i: nat)
    requires i < |s| && s[i] != 0
    ensures Value(s, MaxBase) > 0
    decreases i
  {
    if i == 0 {
      LeadingDigitValue(s, MaxBase);
    } else {
      NonZeroDigitValue(s[1..], i - 1);
    }
  }

  /** The as-written negation never yields the all-zero string. */
  lemma RecalculateNegativeNonZero(s: seq<nat>)
    requires IsBytes(s) && |s| >= 1
    ensures Value(RecalculateNegative(s), MaxBase) > 0
  {
    var r := RecalculateNegative(s);
    if exists i | 0 <= i < |s| :: IsCarryStop(s, i) {
      var i :| 0 <= i < |s| && IsCarryStop(s, i);
      NonZeroDigitValue(r, i);
    } else {
      assert !IsCarryStop(s, |s| - 1);
      NonZeroDigitValue(r, |s| - 1);
    }
  }

  // ---------------------------------------------------------------------
  // Reference: two's-complement bitwise operations on mathematical integers

  /** 0 and -1 are the integers whose two's-complement bits are all equal
      (all 0 or all 1). */
  predicate IsSignFill(x: int) {
    x == 0 || x == -1
  }

  lemma DivShrinks(x: int)
    ensures IntAbs(x / 256) <= IntAbs(x)
    ensures !IsSignFill(x) ==> IntAbs(x / 256) < IntAbs(x)
  {
  }

  /** Bitwise `op` of two integers in infinite two's complement: the low
      byte is the native byte operation on x mod 256 and y mod 256, the rest
      is the same operation on the floor quotients by 256. */
  function IntBitOp(op: Operator, x: int, y: int): int
    decreases IntAbs(x) + IntAbs(y)
  {
    if IsSignFill(x) && IsSignFill(y) then
      if SignRule(op, x < 0, y < 0) then -1 else 0
    else
      DivShrinks(x);
      DivShrinks(y);
      256 * IntBitOp(op, x / 256, y / 256) + ByteOp(op, x % 256, y % 256)
  }

  /** The defining equation of `IntBitOp` holds for all operands, including
      0 and -1. */
  lemma IntBitOpUnfold(op: Operator, x: int, y: int)
    ensures IntBitOp(op, x, y) == 256 * IntBitOp(op, x / 256, y / 256) + ByteOp(op, x % 256, y % 256)
  {
    if IsSignFill(x) && IsSignFill(y) {
      assert x / 256 == x && y / 256 == y;
      ByteOpConstants(op);
    }
  }

  /** The sign of a bitwise result follows `SignRule` for all operands. */
  lemma {:induction false} IntBitOpSign(op: Operator, x: int, y: int)
    ensures IntBitOp(op, x, y) < 0 <==> SignRule(op, x < 0, y < 0)
    decreases IntAbs(x) + IntAbs(y)
  {
    if !(IsSignFill(x) && IsSignFill(y)) {
      DivShrinks(x);
      DivShrinks(y);
      IntBitOpSign(op, x / 256, y / 256);
    }
  }

  /** Operands within [-256^k, 256^k) give a result in the same range. */
  lemma {:induction false} IntBitOpBound(op: Operator, x: int, y: int, k: nat)
    requires var m: int := Pow(MaxBase, k); -m <= x < m && -m <= y < m
    ensures var m: int := Pow(MaxBase, k); -m <= IntBitOp(op, x, y) < m
    decreases k
  {
    if k > 0 {
      var m := Pow(MaxBase, k - 1);
      assert Pow(MaxBase, k) == 256 * m;
      IntBitOpUnfold(op, x, y);
      IntBitOpBound(op, x / 256, y / 256, k - 1);
    }
  }

  /** On single bytes the reference is the native byte operation. */
  lemma IntBitOpOnBytes(op: Operator, p: nat, q: nat)
    requires p < MaxBase && q < MaxBase
    ensures IntBitOp(op, p, q) == ByteOp(op, p, q)
  {
    IntBitOpUnfold(op, p, q);
    assert p / 256 == 0 && q / 256 == 0 && p % 256 == p && q % 256 == q;
    assert IntBitOp(op, 0, 0) == 0;
  }

  // ---------------------------------------------------------------------
  // Byte strings as signed integers

  /** The integer a byte string stands for when every byte to its left is
      0x00 (`negative` false) or 0xFF (`negative` true). */
  function SignedValue(a: seq<nat>, negative: bool): int {
    Value(a, MaxBase) - (if negative then Pow(MaxBase, |a|) else 0)
  }

  lemma SignedValueSnoc(a: seq<nat>, d: nat, negative: bool)
    requires d < MaxBase
    ensures SignedValue(a + [d], negative) == 256 * SignedValue(a, negative) + d
  {
    ValueSnoc(a, d, MaxBase);
    assert Pow(MaxBase, |a + [d]|) == 256 * Pow(MaxBase, |a|);
  }


  /** Combining two byte strings byte by byte is `IntBitOp` on the integers
      they stand for, with the sign bytes to the left combined by
      `SignRule`. */
  lemma {:induction false} ZipSignedValue(op: Operator, a: seq<nat>, b: seq<nat>, an: bool, bn: bool)
    requires |a| == |b| && IsBytes(a) && IsBytes(b)
    ensures SignedValue(Zip(op, a, b), SignRule(op, an, bn)) ==
            IntBitOp(op, SignedValue(a, an), SignedValue(b, bn))
    decreases |a|
  {
    var sign := SignRule(op, an, bn);
    if |a| == 0 {
      assert Zip(op, a, b) == [];
    } else {
      var k := |a| - 1;
      var a', b' := a[..k], b[..k];
      var p, q := a[k], b[k];
      assert a == a' + [p] && b == b' + [q];
      assert Zip(op, a, b) == Zip(op, a', b') + [ByteOp(op, p, q)];
      ZipSignedValue(op, a', b', an, bn);
      SignedValueSnoc(a', p, an);
      SignedValueSnoc(b', q, bn);
      SignedValueSnoc(Zip(op, a', b'), ByteOp(op, p, q), sign);
      var x, y := SignedValue(a, an), SignedValue(b, bn);
      assert x / 256 == SignedValue(a', an) && x % 256 == p;
      assert y / 256 == SignedValue(b', bn) && y % 256 == q;
      IntBitOpUnfold(op, x, y);
    }
  }


  // ---------------------------------------------------------------------
  // The engine

  /** A result before it is printed: its sign and the value `bin2dec`
      computes. */
  datatype SignedMagnitude = SignedMagnitude(negative: bool, magnitude: nat)

  function Max(a: nat, b: nat): nat {
    if a >= b then a else b
  }

  /** One operand as `bitOperatorHelper` prepares it: its magnitude in
      base 256, left-padded to `width` bytes, and for a negative operand
      negated with `RecalculateNegative` (as written) or `Negate`
      (corrected). */
  function Prepare(magnitude: nat, negative: bool, width: nat, corrected: bool): (r: seq<nat>)
    ensures IsBytes(r)
    ensures |r| == Max(|Digits(magnitude, MaxBase)|, width)
  {
    var digits := Digits(magnitude, MaxBase);
    AlignIsBytes(digits, width);
    var l := AlignBinLength(digits, width);
    if !negative then l
    else if corrected then Negate(l)
    else RecalculateNegative(l)
  }

  /** The combined bytes read back: negated again when the result is
      negative, then `bin2dec`. */
  function Finish(bytes: seq<nat>, negative: bool, corrected: bool): SignedMagnitude
    requires IsBytes(bytes)
  {
    var result := if !negative then bytes
                  else if corrected then Negate(bytes)
                  else RecalculateNegative(bytes);
    SignedMagnitude(negative, Value(result, MaxBase))
  }

  /** The byte pipeline of `bitOperatorHelper`. As written (`corrected`
      false) the width is the longer magnitude's length; corrected, it is
      one byte more, so the leftmost byte is a pure sign byte. */
  function Combine(op: Operator, leftNegative: bool, leftMagnitude: nat,
                   rightNegative: bool, rightMagnitude: nat, corrected: bool): SignedMagnitude
  {
    var extra := if corrected then 1 else 0;
    var width := Max(|Digits(leftMagnitude, MaxBase)|, |Digits(rightMagnitude, MaxBase)|) + extra;
    var l := Prepare(leftMagnitude, leftNegative, width, corrected);
    var r := Prepare(rightMagnitude, rightNegative, width, corrected);
    var negative := SignRule(op, leftNegative, rightNegative);
    Finish(Zip(op, l, r), negative, corrected)
  }

  lemma AlignIsBytes(s: seq<nat>, length: int)
    requires IsBytes(s)
    ensures IsBytes(AlignBinLength(s, length))
  {
    var r := AlignBinLength(s, length);
    forall i | 0 <= i < |r|
      ensures r[i] < MaxBase
    {
      if i >= |r| - |s| {
        assert r[i] == r[|r| - |s|..][i - (|r| - |s|)];
      }
    }
  }

  /** The text `bitOperatorHelper` returns: `bin2dec` of the bytes, with a
      '-' in front when the result is negative. */
  function Print(m: SignedMagnitude): string {
    if m.negative then "-" + DecString(m.magnitude) else DecString(m.magnitude)
  }

  /** `bitOperatorHelper` as written. */
  function BitOperatorHelper(op: Operator, a: string, b: string): (r: Result<string>)
    requires IsNumeric(a) && IsNumeric(b)
    ensures r.Err? <==> IsFloat(a) || IsFloat(b)
    ensures IsFloat(a) ==> r == Err(LeftOperandNotInteger)
    ensures !IsFloat(a) && IsFloat(b) ==> r == Err(RightOperandNotInteger)
  {
    if IsFloat(a) then Err(LeftOperandNotInteger)
    else if IsFloat(b) then Err(RightOperandNotInteger)
    else
      NumericWithoutDotIsInteger(a);
      NumericWithoutDotIsInteger(b);
      Ok(Print(Combine(op, IsNegative(a), DecimalValue(DropSign(a)),
                       IsNegative(b), DecimalValue(DropSign(b)), false)))
  }

  /** The corrected `bitOperatorHelper`, which `BitAndCorrected`,
      `BitOrCorrected` and `BitXorCorrected` use. */
  function BitOperator(op: Operator, a: string, b: string): (r: Result<string>)
    requires IsNumeric(a) && IsNumeric(b)
    ensures r.Err? <==> IsFloat(a) || IsFloat(b)
    ensures IsFloat(a) ==> r == Err(LeftOperandNotInteger)
    ensures !IsFloat(a) && IsFloat(b) ==> r == Err(RightOperandNotInteger)
  {
    if IsFloat(a) then Err(LeftOperandNotInteger)
    else if IsFloat(b) then Err(RightOperandNotInteger)
    else
      NumericWithoutDotIsInteger(a);
      NumericWithoutDotIsInteger(b);
      Ok(Print(Combine(op, IsNegative(a), DecimalValue(DropSign(a)),
                       IsNegative(b), DecimalValue(DropSign(b)), true)))
  }

  /** An operand the bit operations handle exactly: integer text other
      than a negative zero. */
  predicate IsIntOperand(s: string) {
    IsIntegerText(s) && (IsNegative(s) ==> IntValue(s) != 0)
  }

  /** What the as-written engine promises on any operands. */
  lemma HelperContract(op: Operator, a: string, b: string)
    requires IsNumeric(a) && IsNumeric(b)
    ensures !IsFloat(a) && !IsFloat(b) ==>
              var r := BitOperatorHelper(op, a, b);
              r.Ok? && IsCanonicalInt(r.value) && (IntValue(r.value) < 0 <==> SignRule(op, IsNegative(a), IsNegative(b)))
    ensures IsIntOperand(a) && IsIntOperand(b) && !IsNegative(a) && !IsNegative(b) ==>
              BitOperatorHelper(op, a, b) == Ok(IntToString(IntBitOp(op, IntValue(a), IntValue(b))))
  {
    if !IsFloat(a) && !IsFloat(b) {
      BitOperatorHelperSign(op, a, b);
    }
    if IsIntOperand(a) && IsIntOperand(b) && !IsNegative(a) && !IsNegative(b) {
      IntegerTextNotFloat(a);
      IntegerTextNotFloat(b);
      BitOperatorHelperNonNegative(op, a, b);
    }
  }

  /** `bitAnd`, as written: it calls `bitOperatorHelper`, which converts
      both operands first. A fraction is refused; on integers the result is
      canonical integer text whose sign follows `SignRule` on the numbers'
      signs, and on non-negative integers it is exactly the bitwise AND
      of the two values. */
  function BitAnd(a: string, b: string): (r: Result<string>)
    requires IsNumeric(a) && IsNumeric(b)
    ensures var x, y := ParseDecimal(a), ParseDecimal(b);
            && (r.Err? <==> x.scale > 0 || y.scale > 0)
            && (x.scale > 0 ==> r == Err(LeftOperandNotInteger))
            && (x.scale == 0 && y.scale == 0 ==>
                  r.Ok? && IsCanonicalInt(r.value) && (IntValue(r.value) < 0 <==> SignRule(And, x.units < 0, y.units < 0)))
            && (x.scale == 0 && y.scale == 0 && x.units >= 0 && y.units >= 0 ==>
                  r == Ok(IntToString(IntBitOp(And, x.units, y.units))))
  {
    ConvertedContract(And, a, b);
    BitOperatorHelper(And, ConvertToNumber(a), ConvertToNumber(b))
  }

  /** `bitOr`, as written: it calls `bitOperatorHelper`, which converts
      both operands first. A fraction is refused; on integers the result is
      canonical integer text whose sign follows `SignRule` on the numbers'
      signs, and on non-negative integers it is exactly the bitwise OR
      of the two values. */
  function BitOr(a: string, b: string): (r: Result<string>)
    requires IsNumeric(a) && IsNumeric(b)
    ensures var x, y := ParseDecimal(a), ParseDecimal(b);
            && (r.Err? <==> x.scale > 0 || y.scale > 0)
            && (x.scale > 0 ==> r == Err(LeftOperandNotInteger))
            && (x.scale == 0 && y.scale == 0 ==>
                  r.Ok? && IsCanonicalInt(r.value) && (IntValue(r.value) < 0 <==> SignRule(Or, x.units < 0, y.units < 0)))
            && (x.scale == 0 && y.scale == 0 && x.units >= 0 && y.units >= 0 ==>
                  r == Ok(IntToString(IntBitOp(Or, x.units, y.units))))
  {
    ConvertedContract(Or, a, b);
    BitOperatorHelper(Or, ConvertToNumber(a), ConvertToNumber(b))
  }

  /** `bitXor`, as written: it calls `bitOperatorHelper`, which converts
      both operands first. A fraction is refused; on integers the result is
      canonical integer text whose sign follows `SignRule` on the numbers'
      signs, and on non-negative integers it is exactly the bitwise XOR
      of the two values. */
  function BitXor(a: string, b: string): (r: Result<string>)
    requires IsNumeric(a) && IsNumeric(b)
    ensures var x, y := ParseDecimal(a), ParseDecimal(b);
            && (r.Err? <==> x.scale > 0 || y.scale > 0)
            && (x.scale > 0 ==> r == Err(LeftOperandNotInteger))
            && (x.scale == 0 && y.scale == 0 ==>
                  r.Ok? && IsCanonicalInt(r.value) && (IntValue(r.value) < 0 <==> SignRule(Xor, x.units < 0, y.units < 0)))
            && (x.scale == 0 && y.scale == 0 && x.units >= 0 && y.units >= 0 ==>
                  r == Ok(IntToString(IntBitOp(Xor, x.units, y.units))))
  {
    ConvertedContract(Xor, a, b);
    BitOperatorHelper(Xor, ConvertToNumber(a), ConvertToNumber(b))
  }

  /** `bitAnd` on the corrected engine: a fraction is refused, and on
      integers the result is the two's-complement AND of their values. */
  function BitAndCorrected(a: string, b: string): (r: Result<string>)
    requires IsNumeric(a) && IsNumeric(b)
    ensures var x, y := ParseDecimal(a), ParseDecimal(b);
            && (r.Err? <==> x.scale > 0 || y.scale > 0)
            && (x.scale == 0 && y.scale == 0 ==> r == Ok(IntToString(IntBitOp(And, x.units, y.units))))
  {
    ConvertedCorrect(And, a, b);
    BitOperator(And, ConvertToNumber(a), ConvertToNumber(b))
  }

  /** `bitOr` on the corrected engine: a fraction is refused, and on
      integers the result is the two's-complement OR of their values. */
  function BitOrCorrected(a: string, b: string): (r: Result<string>)
    requires IsNumeric(a) && IsNumeric(b)
    ensures var x, y := ParseDecimal(a), ParseDecimal(b);
            && (r.Err? <==> x.scale > 0 || y.scale > 0)
            && (x.scale == 0 && y.scale == 0 ==> r == Ok(IntToString(IntBitOp(Or, x.units, y.units))))
  {
    ConvertedCorrect(Or, a, b);
    BitOperator(Or, ConvertToNumber(a), ConvertToNumber(b))
  }

  /** `bitXor` on the corrected engine: a fraction is refused, and on
      integers the result is the two's-complement XOR of their values. */
  function BitXorCorrected(a: string, b: string): (r: Result<string>)
    requires IsNumeric(a) && IsNumeric(b)
    ensures var x, y := ParseDecimal(a), ParseDecimal(b);
            && (r.Err? <==> x.scale > 0 || y.scale > 0)
            && (x.scale == 0 && y.scale == 0 ==> r == Ok(IntToString(IntBitOp(Xor, x.units, y.units))))
  {
    ConvertedCorrect(Xor, a, b);
    BitOperator(Xor, ConvertToNumber(a), ConvertToNumber(b))
  }

  /** The as-written engine on converted operands, stated about the
      numbers the operands stand for. */
  lemma ConvertedContract(op: Operator, a: string, b: string)
    requires IsNumeric(a) && IsNumeric(b)
    ensures var x, y := ParseDecimal(a), ParseDecimal(b);
            var r := BitOperatorHelper(op, ConvertToNumber(a), ConvertToNumber(b));
            && (r.Err? <==> x.scale > 0 || y.scale > 0)
            && (x.scale > 0 ==> r == Err(LeftOperandNotInteger))
            && (x.scale == 0 && y.scale == 0 ==>
                  r.Ok? && IsCanonicalInt(r.value) && (IntValue(r.value) < 0 <==> SignRule(op, x.units < 0, y.units < 0)))
            && (x.scale == 0 && y.scale == 0 && x.units >= 0 && y.units >= 0 ==>
                  r == Ok(IntToString(IntBitOp(op, x.units, y.units))))
  {
    var x, y := ParseDecimal(a), ParseDecimal(b);
    ConvertedText(a);
    ConvertedText(b);
    HelperContract(op, ConvertToNumber(a), ConvertToNumber(b));
    if x.scale == 0 && y.scale == 0 {
      IntToStringRoundTrip(x.units);
      IntToStringRoundTrip(y.units);
    }
  }

  /** The corrected engine on converted operands is exact for every pair
      of integers. */
  lemma ConvertedCorrect(op: Operator, a: string, b: string)
    requires IsNumeric(a) && IsNumeric(b)
    ensures var x, y := ParseDecimal(a), ParseDecimal(b);
            var r := BitOperator(op, ConvertToNumber(a), ConvertToNumber(b));
            && (r.Err? <==> x.scale > 0 || y.scale > 0)
            && (x.scale == 0 && y.scale == 0 ==> r == Ok(IntToString(IntBitOp(op, x.units, y.units))))
  {
    var x, y := ParseDecimal(a), ParseDecimal(b);
    ConvertedText(a);
    ConvertedText(b);
    if x.scale == 0 && y.scale == 0 {
      BitOperatorCorrect(op, x.units, y.units);
    }
  }

  lemma IntegerTextNotFloat(s: string)
    requires IsIntegerText(s)
    ensures !IsFloat(s)
  {
    if IsNegative(s) {
      assert s == "-" + DropSign(s);
    }
  }

  // ---------------------------------------------------------------------
  // Properties of the engine

  /** An operand as the corrected engine prepares it stands for the
      operand itself, and the leftmost byte is free. */
  lemma PrepareSignedValue(magnitude: nat, negative: bool, width: nat)
    requires |Digits(magnitude, MaxBase)| < width
    requires negative ==> magnitude > 0
    ensures |Prepare(magnitude, negative, width, true)| == width
    ensures var v: int := if negative then -(magnitude as int) else magnitude;
            SignedValue(Prepare(magnitude, negative, width, true), negative) == v
    ensures magnitude < Pow(MaxBase, width - 1)
  {
    var l := AlignBinLength(Digits(magnitude, MaxBase), width);
    AlignedOperand(magnitude, width);
    assert Prepare(magnitude, negative, width, true) == if negative then Negate(l) else l;
  }

  /** A magnitude padded to a width with a free leftmost byte keeps its
      value and stays below 256^(width - 1). */
  lemma AlignedOperand(magnitude: nat, width: nat)
    requires |Digits(magnitude, MaxBase)| < width
    ensures var l := AlignBinLength(Digits(magnitude, MaxBase), width);
            && IsBytes(l) && |l| == width && Value(l, MaxBase) == magnitude
            && magnitude < Pow(MaxBase, width - 1)
  {
    var digits := Digits(magnitude, MaxBase);
    AlignIsBytes(digits, width);
    DigitsValue(magnitude, MaxBase);
    AlignPreservesValue(digits, width, MaxBase);
    ValueBound(digits, MaxBase);
    PowMonotone(MaxBase, |digits|, width - 1);
  }

  /** Reading the combined bytes back: the corrected `Finish` gives the
      sign and magnitude of the integer the bytes stand for. */
  lemma FinishCorrect(bytes: seq<nat>, negative: bool, z: int)
    requires IsBytes(bytes) && SignedValue(bytes, negative) == z
    requires z < 0 <==> negative
    requires var m: int := Pow(MaxBase, |bytes|); -m < z
    ensures Finish(bytes, negative, true) == SignedMagnitude(z < 0, IntAbs(z))
  {
  }

  /** The corrected byte pipeline computes `IntBitOp`: for every pair of
      signed operands, given as sign and magnitude, its sign and magnitude
      are those of the reference result. */
  lemma CombineCorrect(op: Operator, leftNegative: bool, leftMagnitude: nat,
                       rightNegative: bool, rightMagnitude: nat)
    requires leftNegative ==> leftMagnitude > 0
    requires rightNegative ==> rightMagnitude > 0
    ensures var x: int := if leftNegative then -(leftMagnitude as int) else leftMagnitude;
            var y: int := if rightNegative then -(rightMagnitude as int) else rightMagnitude;
            var z := IntBitOp(op, x, y);
            Combine(op, leftNegative, leftMagnitude, rightNegative, rightMagnitude, true) ==
            SignedMagnitude(z < 0, IntAbs(z))
  {
    var x: int := if leftNegative then -(leftMagnitude as int) else leftMagnitude;
    var y: int := if rightNegative then -(rightMagnitude as int) else rightMagnitude;
    var width := Max(|Digits(leftMagnitude, MaxBase)|, |Digits(rightMagnitude, MaxBase)|) + 1;
    var l := Prepare(leftMagnitude, leftNegative, width, true);
    var r := Prepare(rightMagnitude, rightNegative, width, true);
    PrepareSignedValue(leftMagnitude, leftNegative, width);
    PrepareSignedValue(rightMagnitude, rightNegative, width);
    assert IntAbs(x) == leftMagnitude && IntAbs(y) == rightMagnitude;
    ZipOperands(op, l, r, x, y);
    BitOpInWidth(op, x, y, width);
    FinishCorrect(Zip(op, l, r), SignRule(op, x < 0, y < 0), IntBitOp(op, x, y));
    CombineUnfold(op, leftNegative, leftMagnitude, rightNegative, rightMagnitude, true);
  }

  lemma CombineUnfold(op: Operator, leftNegative: bool, leftMagnitude: nat,
                      rightNegative: bool, rightMagnitude: nat, corrected: bool)
    ensures var extra := if corrected then 1 else 0;
            var width := Max(|Digits(leftMagnitude, MaxBase)|, |Digits(rightMagnitude, MaxBase)|) + extra;
            var l := Prepare(leftMagnitude, leftNegative, width, corrected);
            var r := Prepare(rightMagnitude, rightNegative, width, corrected);
            |l| == |r| &&
            Combine(op, leftNegative, leftMagnitude, rightNegative, rightMagnitude, corrected) ==
            Finish(Zip(op, l, r), SignRule(op, leftNegative, rightNegative), corrected)
  {
  }

  /** On non-negative operands no negation happens, and the as-written
      pipeline already computes `IntBitOp`. */
  lemma CombineNonNegative(op: Operator, leftMagnitude: nat, rightMagnitude: nat)
    ensures IntBitOp(op, leftMagnitude, rightMagnitude) >= 0
    ensures Combine(op, false, leftMagnitude, false, rightMagnitude, false) ==
            SignedMagnitude(false, IntBitOp(op, leftMagnitude, rightMagnitude))
  {
    var left, right := Digits(leftMagnitude, MaxBase), Digits(rightMagnitude, MaxBase);
    var width := Max(|left|, |right|);
    var l := Prepare(leftMagnitude, false, width, false);
    var r := Prepare(rightMagnitude, false, width, false);
    DigitsValue(leftMagnitude, MaxBase);
    DigitsValue(rightMagnitude, MaxBase);
    AlignPreservesValue(left, width, MaxBase);
    AlignPreservesValue(right, width, MaxBase);
    ZipOperands(op, l, r, leftMagnitude, rightMagnitude);
    CombineUnfold(op, false, leftMagnitude, false, rightMagnitude, false);
  }

  lemma ZipOperands(op: Operator, l: seq<nat>, r: seq<nat>, x: int, y: int)
    requires |l| == |r| && IsBytes(l) && IsBytes(r)
    requires SignedValue(l, x < 0) == x && SignedValue(r, y < 0) == y
    ensures SignedValue(Zip(op, l, r), SignRule(op, x < 0, y < 0)) == IntBitOp(op, x, y)
  {
    ZipSignedValue(op, l, r, x < 0, y < 0);
  }

  lemma BitOpInWidth(op: Operator, x: int, y: int, width: nat)
    requires width >= 1 && IntAbs(x) < Pow(MaxBase, width - 1) && IntAbs(y) < Pow(MaxBase, width - 1)
    ensures var m: int := Pow(MaxBase, width); -m < IntBitOp(op, x, y)
    ensures IntBitOp(op, x, y) < 0 <==> SignRule(op, x < 0, y < 0)
  {
    IntBitOpSign(op, x, y);
    IntBitOpBound(op, x, y, width - 1);
    assert Pow(MaxBase, width) == 256 * Pow(MaxBase, width - 1);
  }

  lemma PrintSigned(m: SignedMagnitude)
    requires m.negative ==> m.magnitude > 0
    ensures var v: int := if m.negative then -(m.magnitude as int) else m.magnitude;
            Print(m) == IntToString(v)
  {
  }

  lemma IntTextOperand(x: int)
    ensures IsNumeric(IntToString(x)) && !IsFloat(IntToString(x))
    ensures IsNegative(IntToString(x)) <==> x < 0
    ensures AllDigitChars(DropSign(IntToString(x)))
    ensures DecimalValue(DropSign(IntToString(x))) == IntAbs(x)
  {
    IntTextIsNumeric(x);
    AbsOfIntText(x);
    DecStringValue(IntAbs(x));
  }

  /** The success path of the corrected engine, as one equation. */
  lemma BitOperatorUnfold(op: Operator, a: string, b: string)
    requires IsNumeric(a) && IsNumeric(b) && !IsFloat(a) && !IsFloat(b)
    ensures IsIntegerText(a) && IsIntegerText(b)
    ensures BitOperator(op, a, b) ==
            Ok(Print(Combine(op, IsNegative(a), DecimalValue(DropSign(a)), IsNegative(b), DecimalValue(DropSign(b)), true)))
  {
    NumericWithoutDotIsInteger(a);
    NumericWithoutDotIsInteger(b);
  }

  /** The success path of the as-written engine, as one equation. */
  lemma BitOperatorHelperUnfold(op: Operator, a: string, b: string)
    requires IsNumeric(a) && IsNumeric(b) && !IsFloat(a) && !IsFloat(b)
    ensures IsIntegerText(a) && IsIntegerText(b)
    ensures BitOperatorHelper(op, a, b) ==
            Ok(Print(Combine(op, IsNegative(a), DecimalValue(DropSign(a)), IsNegative(b), DecimalValue(DropSign(b)), false)))
  {
    NumericWithoutDotIsInteger(a);
    NumericWithoutDotIsInteger(b);
  }

  /** The corrected bit operations on any integer text (leading zeros
      allowed, "-0" excluded) print the two's-complement reference result
      of the integers the texts stand for. */
  lemma BitOperatorValue(op: Operator, a: string, b: string)
    requires IsNumeric(a) && IsNumeric(b) && !IsFloat(a) && !IsFloat(b)
    requires IsIntegerText(a) && IsIntegerText(b)
    requires IsNegative(a) ==> IntValue(a) != 0
    requires IsNegative(b) ==> IntValue(b) != 0
    ensures BitOperator(op, a, b) == Ok(IntToString(IntBitOp(op, IntValue(a), IntValue(b))))
  {
    var an, am := IsNegative(a), DecimalValue(DropSign(a));
    var bn, bm := IsNegative(b), DecimalValue(DropSign(b));
    CombineCorrect(op, an, am, bn, bm);
    assert IntValue(a) == if an then -(am as int) else am;
    assert IntValue(b) == if bn then -(bm as int) else bm;
    BitOperatorPrints(op, a, b, IntBitOp(op, IntValue(a), IntValue(b)));
  }

  /** When the corrected pipeline yields the sign and magnitude of `z`, the
      corrected operation prints `z`. */
  lemma BitOperatorPrints(op: Operator, a: string, b: string, z: int)
    requires IsNumeric(a) && IsNumeric(b) && !IsFloat(a) && !IsFloat(b)
    requires Combine(op, IsNegative(a), DecimalValue(DropSign(a)), IsNegative(b), DecimalValue(DropSign(b)), true) ==
             SignedMagnitude(z < 0, IntAbs(z))
    ensures BitOperator(op, a, b) == Ok(IntToString(z))
  {
    BitOperatorUnfold(op, a, b);
    PrintSigned(SignedMagnitude(z < 0, IntAbs(z)));
  }

  /** For non-negative integer operands the as-written `bitOperatorHelper`
      is exact: it prints the bitwise AND / OR / XOR of the two values. */
  lemma BitOperatorHelperNonNegative(op: Operator, a: string, b: string)
    requires IsNumeric(a) && IsNumeric(b) && !IsFloat(a) && !IsFloat(b)
    requires !IsNegative(a) && !IsNegative(b)
    ensures IsIntegerText(a) && IsIntegerText(b)
    ensures BitOperatorHelper(op, a, b) == Ok(IntToString(IntBitOp(op, IntValue(a), IntValue(b))))
  {
    BitOperatorHelperUnfold(op, a, b);
    var am, bm := DecimalValue(DropSign(a)), DecimalValue(DropSign(b));
    CombineNonNegative(op, am, bm);
    var z := IntBitOp(op, IntValue(a), IntValue(b));
    assert BitOperatorHelper(op, a, b) == Ok(Print(SignedMagnitude(false, z)));
    PrintSigned(SignedMagnitude(false, z));
  }

  /** The corrected bit operations agree with the two's-complement
      reference on every pair of integers, printed as the primitive
      prints them. */
  lemma BitOperatorCorrect(op: Operator, x: int, y: int)
    ensures IsNumeric(IntToString(x)) && IsNumeric(IntToString(y))
    ensures BitOperator(op, IntToString(x), IntToString(y)) == Ok(IntToString(IntBitOp(op, x, y)))
  {
    IntTextOperand(x);
    IntTextOperand(y);
    IntToStringRoundTrip(x);
    IntToStringRoundTrip(y);
    BitOperatorValue(op, IntToString(x), IntToString(y));
  }

  /** As written, an integer result is canonical integer text, and it is
      negative exactly as `SignRule` says. */
  lemma BitOperatorHelperSign(op: Operator, a: string, b: string)
    requires IsNumeric(a) && IsNumeric(b) && !IsFloat(a) && !IsFloat(b)
    ensures BitOperatorHelper(op, a, b).Ok?
    ensures var t := BitOperatorHelper(op, a, b).value;
            IsCanonicalInt(t) && (IntValue(t) < 0 <==> SignRule(op, IsNegative(a), IsNegative(b)))
  {
    BitOperatorHelperUnfold(op, a, b);
    var lm, rm := DecimalValue(DropSign(a)), DecimalValue(DropSign(b));
    var width := Max(|Digits(lm, MaxBase)|, |Digits(rm, MaxBase)|);
    var l := Prepare(lm, IsNegative(a), width, false);
    var r := Prepare(rm, IsNegative(b), width, false);
    var bytes := Zip(op, l, r);
    var c := Combine(op, IsNegative(a), lm, IsNegative(b), rm, false);
    if c.negative {
      RecalculateNegativeNonZero(bytes);
    }
    PrintSigned(c);
    var v: int := if c.negative then -(c.magnitude as int) else c.magnitude;
    IntToStringRoundTrip(v);
  }

  /** `bitAnd` on the scenario 5 AND 3. */
  lemma BitAndExample()
    ensures BitAnd("5", "3") == Ok("1")
  {
    DecStringDigit(5);
    DecStringDigit(3);
    DecStringDigit(1);
    ConvertInteger(5);
    ConvertInteger(3);
    assert IntBitOp(And, 5, 3) == 1;
  }

  /** The as-written engine on -1 AND 1: -1 is prepared as the byte 0xFF,
      and the AND keeps the 1. */
  lemma CombineNegativeAndExample()
    ensures Combine(And, true, 1, false, 1, false) == SignedMagnitude(false, 1)
  {
    SingleByteDigits(1);
    RecalculateSingle(1);
    assert Prepare(1, true, 1, false) == [255];
    assert Prepare(1, false, 1, false) == [1];
    assert Zip(And, [255], [1]) == [ByteOp(And, 255, 1)];
    assert ByteOp(And, 255, 1) == 1;
    assert Value([1], MaxBase) == Value([], MaxBase) * MaxBase + 1;
  }

  /** `bitAnd` on the scenario -1 AND 1: -1 is all one bits. */
  lemma BitAndNegativeExample()
    ensures BitAnd("-1", "1") == Ok("1")
  {
    var a, b := IntToString(-1), IntToString(1);
    assert BitAnd(a, b) == Ok(IntToString(1)) by {
      ConvertInteger(-1);
      ConvertInteger(1);
      IntTextOperand(-1);
      IntTextOperand(1);
      BitOperatorHelperUnfold(And, a, b);
      CombineNegativeAndExample();
      PrintSigned(SignedMagnitude(false, 1));
    }
    TextSmall();
  }

  /** `recalculateNegative` on the magnitude 256 (bytes 01 00): the carried
      byte stays 0xFF, where two's complement gives FF 00. */
  lemma RecalculateNegativeOverflow()
    ensures RecalculateNegative([1, 0]) == [255, 255]
    ensures Negate([1, 0]) == [255, 0]
  {
    assert IsCarryStop([1, 0], 0);
    var c := Complement([1, 0]);
    assert c == [254, 255];
    assert AddOne(c) == AddOne([254]) + [0];
  }

  lemma CombineOverflowExample()
    ensures Combine(Or, true, 256, false, 0, false) == SignedMagnitude(true, 1)
  {
    assert Digits(256, MaxBase) == DigitLoop(1, MaxBase) + [0];
    assert Digits(256, MaxBase) == [1, 0];
    assert AlignBinLength([0], 2) == [0, 0];
    RecalculateNegativeOverflow();
    var bytes := Zip(Or, [255, 255], [0, 0]);
    assert bytes == [255, 255];
    assert IsCarryStop(bytes, 1);
    assert RecalculateNegative(bytes) == [0, 1];
  }

  /** A single non-zero byte is its own base-256 digit string. */
  lemma SingleByteDigits(n: nat)
    requires 0 < n < MaxBase
    ensures Digits(n, MaxBase) == [n]
  {
    assert DigitLoop(n, MaxBase) == DigitLoop(0, MaxBase) + [n];
  }

  /** `recalculateNegative` on one byte: a non-zero byte p becomes 256 - p,
      and a zero byte becomes 0xFF. */
  lemma RecalculateSingle(p: nat)
    requires p < MaxBase
    ensures RecalculateNegative([p]) == [if p == 0 then 255 else 256 - p]
  {
    var r := RecalculateNegative([p]);
    if p != 0 {
      assert IsCarryStop([p], 0);
    } else {
      assert !IsCarryStop([p], 0);
    }
  }

  lemma CombineWidthExample()
    ensures Combine(Xor, true, 1, false, 255, false) == SignedMagnitude(true, 255)
  {
    SingleByteDigits(1);
    SingleByteDigits(255);
    RecalculateSingle(1);
    RecalculateSingle(0);
    assert Prepare(1, true, 1, false) == [255];
    assert Prepare(255, false, 1, false) == [255];
    assert Zip(Xor, [255], [255]) == [ByteOp(Xor, 255, 255)];
    XorWithFF(255);
  }

  lemma Text256()
    ensures IntToString(-256) == "-256" && IntToString(256) == "256"
    ensures IntToString(-255) == "-255" && IntToString(255) == "255"
  {
    DecStringSnoc(256);
    DecStringSnoc(255);
    DecStringSnoc(25);
    DecStringDigit(2);
    DecStringDigit(5);
  }

  lemma TextSmall()
    ensures IntToString(0) == "0" && IntToString(-1) == "-1" && IntToString(1) == "1"
  {
    DecStringDigit(1);
  }

  /** As written, bitOr(-256, 0) is -1; the reference, and so the corrected
      `bitOr`, give -256. */
  lemma BitOrOverflowCounterexample()
    ensures BitOr("-256", "0") == Ok("-1")
    ensures IntBitOp(Or, -256, 0) == -256
    ensures BitOrCorrected("-256", "0") == Ok("-256")
  {
    var a, b := IntToString(-256), IntToString(0);
    assert BitOr(a, b) == Ok(IntToString(-1)) by {
      ConvertInteger(-256);
      ConvertInteger(0);
      IntTextOperand(-256);
      IntTextOperand(0);
      BitOperatorHelperUnfold(Or, a, b);
      CombineOverflowExample();
      PrintSigned(SignedMagnitude(true, 1));
    }
    OrExample();
    assert BitOrCorrected(a, b) == Ok(IntToString(-256)) by {
      ConvertInteger(-256);
      ConvertInteger(0);
      BitOperatorCorrect(Or, -256, 0);
    }
    Text256();
    TextSmall();
  }

  lemma OrExample()
    ensures IntBitOp(Or, -256, 0) == -256
  {
    IntBitOpUnfold(Or, -256, 0);
    assert -256 / 256 == -1 && -256 % 256 == 0;
    assert IntBitOp(Or, -1, 0) == -1;
    ByteOpConstants(Or);
  }

  /** As written, bitXor(-1, 255) is -255: the result -256 needs one byte
      more than the operands, which the as-written width does not have. */
  lemma BitXorWidthCounterexample()
    ensures BitXor("-1", "255") == Ok("-255")
    ensures IntBitOp(Xor, -1, 255) == -256
    ensures BitXorCorrected("-1", "255") == Ok("-256")
  {
    var a, b := IntToString(-1), IntToString(255);
    assert BitXor(a, b) == Ok(IntToString(-255)) by {
      ConvertInteger(-1);
      ConvertInteger(255);
      IntTextOperand(-1);
      IntTextOperand(255);
      BitOperatorHelperUnfold(Xor, a, b);
      CombineWidthExample();
      PrintSigned(SignedMagnitude(true, 255));
    }
    XorExample();
    assert BitXorCorrected(a, b) == Ok(IntToString(-256)) by {
      ConvertInteger(-1);
      ConvertInteger(255);
      BitOperatorCorrect(Xor, -1, 255);
    }
    Text256();
    TextSmall();
  }

  lemma XorExample()
    ensures IntBitOp(Xor, -1, 255) == -256
  {
    assert IntBitOp(Xor, -1, 0) == -1;
    IntBitOpUnfold(Xor, -1, 255);
    assert ByteOp(Xor, 255, 255) == 0;
  }
}

=== FILE: decimal.dfy ===
/** Decimal numbers as the arbitrary-precision primitive holds them: an
    integer count of units of 10^-scale. `Render` is the primitive's text
    of such a number (exactly `scale` digits after the '.'), `ParseDecimal`
    reads numeric text back. On top of them: `trimTrailingZeroes`,
    `formatTrailingZeroes` and `abs` of src/Number.php, which take a
    number's text apart and read the result back as a number. */
module Decimals {
  import opened Wrappers
  import opened BaseConversion
  import opened NumericString

  datatype Decimal = Decimal(units: int, scale: nat)

  /** The number a decimal stands for. */
  function RealValue(d: Decimal): real {
    d.units as real / Pow(10, d.scale) as real
  }

  function ZeroChars(k: nat): (r: string)
    ensures |r| == k && forall i | 0 <= i < k :: r[i] == '0'
  {
    seq(k, i => '0')
  }

  function Sign(negative: bool): string {
    if negative then "-" else ""
  }

  /** Integer digits, and a '.' with the fraction digits when there are
      any. */
  function Compose(whole: string, fraction: string): string {
    if |fraction| == 0 then whole else whole + "." + fraction
  }

  /** The magnitude's digits, left-padded with zeros so that at least one
      digit comes before the last `scale` ones. */
  function Padded(d: Decimal): string {
    var digits := DecString(IntAbs(d.units));
    if d.scale + 1 <= |digits| then digits else ZeroChars(d.scale + 1 - |digits|) + digits
  }

  /** The padded digits before the '.'. */
  function Whole(d: Decimal): string
    requires |Padded(d)| >= d.scale
  {
    Padded(d)[..|Padded(d)| - d.scale]
  }

  /** The last `scale` padded digits, after the '.'. */
  function Fraction(d: Decimal): string
    requires |Padded(d)| >= d.scale
  {
    Padded(d)[|Padded(d)| - d.scale..]
  }

  /** The primitive's text of a decimal: the magnitude's digits, padded
      with zeros so that at least one digit precedes the '.', and exactly
      `scale` digits after it. */
  function Render(d: Decimal): string {
    PaddedShape(d);
    Sign(d.units < 0) + Compose(Whole(d), Fraction(d))
  }

  /** The padded digits are digits, longer than the scale, and stand for
      the magnitude. */
  lemma PaddedShape(d: Decimal)
    ensures |Padded(d)| >= d.scale + 1 && AllDigitChars(Padded(d))
    ensures DecimalValue(Padded(d)) == IntAbs(d.units)
  {
    var digits := DecString(IntAbs(d.units));
    DecStringValue(IntAbs(d.units));
    if d.scale + 1 > |digits| {
      DecimalValueZerosPrefix(d.scale + 1 - |digits|, digits);
    }
  }

  /** The two halves of the padded digits. */
  lemma RenderParts(d: Decimal)
    ensures |Padded(d)| >= d.scale + 1
    ensures |Whole(d)| >= 1 && AllDigitChars(Whole(d)) && AllDigitChars(Fraction(d))
    ensures |Fraction(d)| == d.scale
    ensures DecimalValue(Whole(d) + Fraction(d)) == IntAbs(d.units)
  {
    PaddedShape(d);
    assert Whole(d) + Fraction(d) == Padded(d);
  }

  /** The digits of numeric text before its '.'. */
  function IntegerDigits(s: string): (r: string)
    requires IsNumeric(s)
    ensures |r| >= 1 && AllDigitChars(r)
  {
    DropSign(s)[..DotIndex(DropSign(s))]
  }

  /** The digits of numeric text after its '.', empty when there is none. */
  function FractionDigits(s: string): (r: string)
    requires IsNumeric(s)
    ensures AllDigitChars(r)
    ensures IsFloat(DropSign(s)) <==> |r| > 0
  {
    var t := DropSign(s);
    var k := DotIndex(t);
    if k < |t| then t[k + 1..] else ""
  }

  /** Numeric text read as a decimal: the digits without the '.' are the
      units, the digits after the '.' count the scale. */
  function ParseDecimal(s: string): Decimal
    requires IsNumeric(s)
  {
    DigitCharsAppend(IntegerDigits(s), FractionDigits(s));
    var m: int := DecimalValue(IntegerDigits(s) + FractionDigits(s));
    Decimal(if IsNegative(s) then -m else m, |FractionDigits(s)|)
  }

  lemma DigitCharsAppend(a: string, b: string)
    requires AllDigitChars(a) && AllDigitChars(b)
    ensures AllDigitChars(a + b)
  {
    assert forall i | 0 <= i < |a + b| :: (a + b)[i] == if i < |a| then a[i] else b[i - |a|];
  }

  lemma {:induction false} DotIndexOfDigits(a: string, rest: string)
    requires AllDigitChars(a)
    ensures DotIndex(a + rest) == |a| + DotIndex(rest)
    decreases |a|
  {
    if |a| > 0 {
      assert (a + rest)[1..] == a[1..] + rest;
      DotIndexOfDigits(a[1..], rest);
    } else {
      assert a + rest == rest;
    }
  }

  /** Where the '.' of composed text sits, and what lies on either side. */
  lemma ComposeShape(whole: string, fraction: string)
    requires AllDigitChars(whole)
    ensures var t := Compose(whole, fraction);
            var k := DotIndex(t);
            && k == |whole| && t[..k] == whole
            && (|fraction| == 0 ==> k == |t|)
            && (|fraction| > 0 ==> k < |t| && t[k + 1..] == fraction)
  {
    var t := Compose(whole, fraction);
    if |fraction| == 0 {
      DotIndexOfDigits(whole, "");
      assert whole + "" == whole;
    } else {
      DotIndexOfDigits(whole, "." + fraction);
      assert t == whole + ("." + fraction);
    }
  }

  /** A sign in front of text that does not start with '-'. */
  lemma SignShape(negative: bool, t: string)
    requires |t| >= 1 && t[0] != '-'
    ensures IsNegative(Sign(negative) + t) == negative
    ensures DropSign(Sign(negative) + t) == t
  {
    if negative {
      assert (Sign(negative) + t)[1..] == t;
    } else {
      assert Sign(negative) + t == t;
    }
  }

  /** Composed text is well-formed numeric text, and reading it gives back
      the sign, the digits and the number of fraction digits. */
  lemma ParseCompose(negative: bool, whole: string, fraction: string)
    requires |whole| >= 1 && AllDigitChars(whole) && AllDigitChars(fraction)
    ensures AllDigitChars(whole + fraction)
    ensures var s := Sign(negative) + Compose(whole, fraction);
            var m: int := DecimalValue(whole + fraction);
            IsNumeric(s) && ParseDecimal(s) == Decimal(if negative then -m else m, |fraction|)
  {
    var t := Compose(whole, fraction);
    assert t[0] == whole[0];
    SignShape(negative, t);
    ComposeShape(whole, fraction);
  }

  lemma CharsToDigitsAppend(a: string, b: string)
    requires AllDigitChars(a) && AllDigitChars(b)
    ensures AllDigitChars(a + b)
    ensures CharsToDigits(a + b) == CharsToDigits(a) + CharsToDigits(b)
  {
  }

  /** Leading zero characters do not change the value of a digit run. */
  lemma DecimalValueZerosPrefix(k: nat, s: string)
    requires AllDigitChars(s)
    ensures AllDigitChars(ZeroChars(k) + s)
    ensures DecimalValue(ZeroChars(k) + s) == DecimalValue(s)
  {
    CharsToDigitsAppend(ZeroChars(k), s);
    assert CharsToDigits(ZeroChars(k)) == Zeros(k);
    ValueZerosPrefix(k, CharsToDigits(s), 10);
  }

  lemma {:induction false} ValueZerosSuffix(s: seq<nat>, k: nat, base: nat)
    ensures Value(s + Zeros(k), base) == Value(s, base) * Pow(base, k)
    decreases k
  {
    if k == 0 {
      assert s + Zeros(k) == s;
    } else {
      assert s + Zeros(k) == (s + Zeros(k - 1)) + [0];
      ValueSnoc(s + Zeros(k - 1), 0, base);
      ValueZerosSuffix(s, k - 1, base);
      MulRotate(Value(s, base), Pow(base, k - 1), base);
    }
  }

  lemma MulRotate(a: nat, b: nat, c: nat)
    ensures a * b * c == a * (c * b)
  {
  }

  /** Trailing zero characters multiply the value of a digit run by a power
      of ten. */
  lemma DecimalValueZerosSuffix(s: string, k: nat)
    requires AllDigitChars(s)
    ensures AllDigitChars(s + ZeroChars(k))
    ensures DecimalValue(s + ZeroChars(k)) == DecimalValue(s) * Pow(10, k)
  {
    CharsToDigitsAppend(s, ZeroChars(k));
    assert CharsToDigits(ZeroChars(k)) == Zeros(k);
    ValueZerosSuffix(CharsToDigits(s), k, 10);
  }

  /** Render then parse gives the decimal back. */
  lemma ParseRender(d: Decimal)
    ensures IsNumeric(Render(d)) && ParseDecimal(Render(d)) == d
  {
    RenderParts(d);
    if d.units < 0 {
      ParseCompose(true, Whole(d), Fraction(d));
    } else {
      ParseCompose(false, Whole(d), Fraction(d));
    }
  }

  /** The run after the last '.' of a + "." + b, when b has no '.'. */
  lemma CharsAfterLastDotIs(a: string, b: string)
    requires '.' !in b
    ensures CharsAfterLastDot(a + "." + b) == |b|
  {
    var s := a + "." + b;
    var r := CharsAfterLastDot(s);
    assert s[|a|] == '.';
  }

  /** Numeric text is a sign and composed digits. */
  lemma SplitAround(t: string, k: nat)
    requires k < |t|
    ensures t == t[..k] + [t[k]] + t[k + 1..]
  {
    assert t == t[..k] + t[k..];
    assert t[k..] == [t[k]] + t[k + 1..];
  }

  lemma NumericDecompose(s: string)
    requires IsNumeric(s)
    ensures s == Sign(IsNegative(s)) + Compose(IntegerDigits(s), FractionDigits(s))
  {
    var t := DropSign(s);
    var k := DotIndex(t);
    assert s == Sign(IsNegative(s)) + t;
    assert IntegerDigits(s) == t[..k];
    if k < |t| {
      assert FractionDigits(s) == t[k + 1..];
      SplitAround(t, k);
      assert [t[k]] == ".";
    } else {
      assert FractionDigits(s) == "";
      assert t == t[..k];
    }
  }

  /** The scale `getDecimalsLength` reads off numeric text is the scale of
      the decimal the text stands for. */
  lemma DecimalsLengthIsScale(s: string)
    requires IsNumeric(s)
    ensures GetDecimalsLength(s) == ParseDecimal(s).scale
  {
    NumericDecompose(s);
    ComposeDecimals(IsNegative(s), IntegerDigits(s), FractionDigits(s));
  }

  /** Composed text has as many decimals as fraction digits. */
  lemma ComposeDecimals(negative: bool, whole: string, fraction: string)
    requires |whole| >= 1 && AllDigitChars(whole) && AllDigitChars(fraction)
    ensures GetDecimalsLength(Sign(negative) + Compose(whole, fraction)) == |fraction|
  {
    var s := Sign(negative) + Compose(whole, fraction);
    SignedDigitsShape(negative, whole);
    if |fraction| > 0 {
      assert '.' !in fraction;
      SignCompose(negative, whole, fraction);
      CharsAfterLastDotIs(Sign(negative) + whole, fraction);
      assert s[|Sign(negative) + whole|] == '.';
    } else {
      assert s == Sign(negative) + whole;
    }
  }

  /** Signed digits contain no '.' and end in a digit. */
  lemma SignedDigitsShape(negative: bool, whole: string)
    requires |whole| >= 1 && AllDigitChars(whole)
    ensures var q := Sign(negative) + whole;
            !IsFloat(q) && |q| >= 1 && IsDigitChar(q[|q| - 1])
  {
    var q := Sign(negative) + whole;
    var o := |Sign(negative)|;
    forall i | 0 <= i < |q|
      ensures q[i] != '.'
    {
      if i >= o {
        assert q[i] == whole[i - o];
      }
    }
    assert q[|q| - 1] == whole[|whole| - 1];
  }

  /** Once the '0's are gone, a trailing '.' is removed and nothing else. */
  lemma RTrimDotAfterDigits(q: string, g: string)
    requires |q| >= 1 && IsDigitChar(q[|q| - 1]) && AllDigitChars(g)
    ensures RTrim(q + "." + g, '.') == if |g| == 0 then q else q + "." + g
  {
    var p := q + ".";
    if |g| == 0 {
      assert q + "." + g == p;
      assert p[..|p| - 1] == q;
      assert RTrim(q, '.') == q;
    } else {
      var s := q + "." + g;
      assert s[|s| - 1] == g[|g| - 1];
    }
  }

  /** Trimming text with a '.' after digits trims the fraction only. */
  lemma TrimAfterDot(q: string, fraction: string)
    requires |q| >= 1 && IsDigitChar(q[|q| - 1]) && AllDigitChars(fraction) && |fraction| > 0
    ensures TrimText(q + "." + fraction) == Compose(q, RTrim(fraction, '0'))
  {
    var p := q + ".";
    var s := p + fraction;
    assert s[|q|] == '.';
    RTrimAppend(p, fraction, '0');
    var g := RTrim(fraction, '0');
    assert RTrim(s, '0') == q + "." + g;
    RTrimDotAfterDigits(q, g);
  }

  lemma SignCompose(negative: bool, whole: string, fraction: string)
    requires |fraction| > 0
    ensures Sign(negative) + Compose(whole, fraction) == (Sign(negative) + whole) + "." + fraction
    ensures Compose(Sign(negative) + whole, fraction) == Sign(negative) + Compose(whole, fraction)
  {
  }

  /** Trimming composed text trims the fraction digits only. */
  lemma TrimCompose(negative: bool, whole: string, fraction: string)
    requires |whole| >= 1 && AllDigitChars(whole) && AllDigitChars(fraction)
    ensures TrimText(Sign(negative) + Compose(whole, fraction)) ==
            Sign(negative) + Compose(whole, RTrim(fraction, '0'))
  {
    var q := Sign(negative) + whole;
    SignedDigitsShape(negative, whole);
    if |fraction| > 0 {
      var g := RTrim(fraction, '0');
      SignCompose(negative, whole, fraction);
      TrimAfterDot(q, fraction);
      if |g| > 0 {
        SignCompose(negative, whole, g);
      }
    } else {
      assert Sign(negative) + Compose(whole, fraction) == q;
    }
  }

  lemma {:induction false} RTrimAppend(a: string, b: string, c: char)
    requires |a| > 0 && a[|a| - 1] != c
    ensures RTrim(a + b, c) == a + RTrim(b, c)
    decreases |b|
  {
    if |b| == 0 {
      assert a + b == a;
      assert RTrim(a, c) == a;
    } else if b[|b| - 1] == c {
      assert (a + b)[..|a + b| - 1] == a + b[..|b| - 1];
      RTrimAppend(a, b[..|b| - 1], c);
    } else {
      assert RTrim(a + b, c) == a + b;
    }
  }

  lemma ScaleCancel(u: int, s: nat, z: nat)
    ensures RealValue(Decimal(u * Pow(10, z), s + z)) == RealValue(Decimal(u, s))
  {
    var a, b, c := Pow(10, s), Pow(10, z), Pow(10, s + z);
    assert RealValue(Decimal(u * b, s + z)) == (u * b) as real / c as real;
    PowAdd(10, s, z);
    assert c == a * b;
    CancelFactor(u, a, b);
  }

  lemma CancelFactor(u: int, a: nat, b: nat)
    requires a > 0 && b > 0
    ensures (u * b) as real / (a * b) as real == u as real / a as real
  {
    CastMul(a, b);
    CastMul(u, b);
    RealCancel(u as real, a as real, b as real);
  }

  lemma CastMul(x: int, y: int)
    ensures (x * y) as real == x as real * y as real
  {
  }

  lemma RealCancel(x: real, a: real, b: real)
    requires a > 0.0 && b > 0.0
    ensures (x * b) / (a * b) == x / a
  {
  }

  lemma SignedMul(x: int, m: nat, p: nat)
    requires IntAbs(x) == m * p
    ensures x == (if x < 0 then -(m as int) else m) * p
  {
  }

  /** A decimal whose magnitude is m * 10^z at z more places has the value
      of m at the shorter scale, signed alike. */
  lemma SameValueScaled(d: Decimal, e: Decimal, m: nat, z: nat)
    requires IntAbs(d.units) == m * Pow(10, z) && d.scale == e.scale + z
    requires e.units == if d.units < 0 then -(m as int) else m
    ensures RealValue(e) == RealValue(d)
  {
    SignedMul(d.units, m, Pow(10, z));
    assert d == Decimal(e.units * Pow(10, z), e.scale + z);
    ScaleCancel(e.units, e.scale, z);
  }

  /** A decimal in its shortest form: no scale, or a last digit that is
      not zero. */
  predicate IsTrimmed(d: Decimal) {
    d.scale == 0 || d.units % 10 != 0
  }

  /** The last digit of a digit run is its value modulo ten. */
  lemma LastDigitValue(s: string)
    requires AllDigitChars(s) && |s| > 0
    ensures DecimalValue(s) % 10 == s[|s| - 1] as int - '0' as int
  {
    var ds := CharsToDigits(s);
    assert ds == ds[..|ds| - 1] + [ds[|ds| - 1]];
    ValueSnoc(ds[..|ds| - 1], ds[|ds| - 1], 10);
    DivModUnique(Value(ds[..|ds| - 1], 10), ds[|ds| - 1], 10);
  }

  lemma NegatedMod(m: int)
    requires m % 10 != 0
    ensures (-m) % 10 != 0
  {
  }

  lemma DigitsZerosValue(whole: string, g: string, z: nat)
    requires AllDigitChars(whole) && AllDigitChars(g)
    ensures AllDigitChars(g + ZeroChars(z)) && AllDigitChars(whole + g)
    ensures AllDigitChars(whole + (g + ZeroChars(z)))
    ensures DecimalValue(whole + (g + ZeroChars(z))) == DecimalValue(whole + g) * Pow(10, z)
  {
    DigitCharsAppend(g, ZeroChars(z));
    DigitCharsAppend(whole, g);
    assert whole + (g + ZeroChars(z)) == (whole + g) + ZeroChars(z);
    DecimalValueZerosSuffix(whole + g, z);
  }

  /** A signed magnitude m * 10^z at z more places has the value of the
      signed magnitude m. */
  lemma SignedScaled(negative: bool, m: nat, z: nat, scale: nat)
    ensures var n: int := m * Pow(10, z);
            RealValue(Decimal(if negative then -n else n, scale + z)) ==
            RealValue(Decimal(if negative then -(m as int) else m, scale))
  {
    var n: int := m * Pow(10, z);
    if m == 0 {
      assert n == 0;
    } else {
      assert n >= m;
    }
    SameValueScaled(Decimal(if negative then -n else n, scale + z), Decimal(if negative then -(m as int) else m, scale), m, z);
  }

  /** Zeros appended to the fraction of composed text keep the number and
      grow the scale. */
  lemma ComposedZerosValue(negative: bool, whole: string, g: string, f: string, z: nat)
    requires |whole| >= 1 && AllDigitChars(whole) && AllDigitChars(g)
    requires f == g + ZeroChars(z)
    ensures AllDigitChars(f)
    ensures var s, t := Sign(negative) + Compose(whole, f), Sign(negative) + Compose(whole, g);
            IsNumeric(s) && IsNumeric(t) &&
            RealValue(ParseDecimal(t)) == RealValue(ParseDecimal(s)) &&
            ParseDecimal(t).scale <= ParseDecimal(s).scale
  {
    var s, t := Sign(negative) + Compose(whole, f), Sign(negative) + Compose(whole, g);
    assert AllDigitChars(f) by {
      DigitCharsAppend(g, ZeroChars(z));
    }
    assert AllDigitChars(whole + g) by {
      DigitCharsAppend(whole, g);
    }
    var m': nat := DecimalValue(whole + g);
    var n: int := m' * Pow(10, z);
    var ds, dt := Decimal(if negative then -n else n, |g| + z), Decimal(if negative then -(m' as int) else m', |g|);
    assert RealValue(dt) == RealValue(ds) by {
      SignedScaled(negative, m', z, |g|);
    }
    assert IsNumeric(s) && ParseDecimal(s) == ds by {
      DigitsZerosValue(whole, g, z);
      ParseCompose(negative, whole, f);
    }
    assert IsNumeric(t) && ParseDecimal(t) == dt by {
      ParseCompose(negative, whole, g);
    }
  }

  /** Composed text whose fraction does not end in '0' reads back as a
      decimal in its shortest form. */
  lemma ComposedShortest(negative: bool, whole: string, fraction: string)
    requires |whole| >= 1 && AllDigitChars(whole) && AllDigitChars(fraction)
    requires |fraction| == 0 || fraction[|fraction| - 1] != '0'
    ensures var t := Sign(negative) + Compose(whole, fraction);
            IsNumeric(t) && IsTrimmed(ParseDecimal(t))
  {
    assert AllDigitChars(whole + fraction) by {
      DigitCharsAppend(whole, fraction);
    }
    var m: int := DecimalValue(whole + fraction);
    var d := Decimal(if negative then -m else m, |fraction|);
    assert IsTrimmed(d) by {
      if |fraction| > 0 {
        LastDigitValue(whole + fraction);
        assert (whole + fraction)[|whole + fraction| - 1] == fraction[|fraction| - 1];
        if negative {
          NegatedMod(m);
        }
      }
    }
    assert IsNumeric(Sign(negative) + Compose(whole, fraction)) && ParseDecimal(Sign(negative) + Compose(whole, fraction)) == d by {
      ParseCompose(negative, whole, fraction);
    }
  }

  /** Composed text, and the same text with the zeros after a fraction
      that does not end in '0' dropped, hold the same number; the shorter
      one is in its shortest form. */
  lemma ComposedTrimmedForm(negative: bool, whole: string, g: string, fraction: string, z: nat)
    requires |whole| >= 1 && AllDigitChars(whole) && AllDigitChars(g)
    requires fraction == g + ZeroChars(z) && (|g| == 0 || g[|g| - 1] != '0')
    ensures var s, u := Sign(negative) + Compose(whole, fraction), Sign(negative) + Compose(whole, g);
            IsNumeric(s) && IsNumeric(u) &&
            var d, e := ParseDecimal(s), ParseDecimal(u);
            RealValue(e) == RealValue(d) && e.scale <= d.scale && IsTrimmed(e)
  {
    ComposedShortest(negative, whole, g);
    ComposedZerosValue(negative, whole, g, fraction, z);
  }

  /** Trimming composed text gives numeric text for the same number, at a
      scale no larger, in its shortest form. */
  lemma TrimComposedNumeric(negative: bool, whole: string, fraction: string)
    requires |whole| >= 1 && AllDigitChars(whole) && AllDigitChars(fraction)
    ensures var s := Sign(negative) + Compose(whole, fraction);
            IsNumeric(s) && IsNumeric(TrimText(s)) &&
            var d, e := ParseDecimal(s), ParseDecimal(TrimText(s));
            RealValue(e) == RealValue(d) && e.scale <= d.scale && IsTrimmed(e)
  {
    var g := RTrim(fraction, '0');
    assert AllDigitChars(g) by {
      assert forall i | 0 <= i < |g| :: g[i] == fraction[i];
    }
    assert fraction == g + ZeroChars(|fraction| - |g|);
    ComposedTrimmedForm(negative, whole, g, fraction, |fraction| - |g|);
    TrimCompose(negative, whole, fraction);
  }

  /** Trimming numeric text gives numeric text for the same number, at a
      scale no larger, in its shortest form. */
  lemma TrimNumeric(s: string)
    requires IsNumeric(s)
    ensures IsNumeric(TrimText(s))
    ensures var d, e := ParseDecimal(s), ParseDecimal(TrimText(s));
            RealValue(e) == RealValue(d) && e.scale <= d.scale && IsTrimmed(e)
  {
    NumericDecompose(s);
    TrimComposedNumeric(IsNegative(s), IntegerDigits(s), FractionDigits(s));
  }

  /** `trimTrailingZeroes`: the trimmed text read back by the primitive,
      whose constructor refuses text that is not a number. The result is
      the primitive's own text of the number: "-0", "00" and "000.000"
      all come back as "0", "007.50" as "7.5". */
  function TrimTrailingZeroes(s: string): (r: Result<string>)
    ensures r.Err? <==> !IsNumeric(TrimText(s))
    ensures r.Err? ==> r.error == MalformedNumber
    ensures r.Ok? ==> IsNumeric(r.value) && Render(ParseDecimal(r.value)) == r.value
    ensures r.Ok? ==> ParseDecimal(r.value) == ParseDecimal(TrimText(s))
  {
    var u := TrimText(s);
    if IsNumeric(u) then
      ParseRender(ParseDecimal(u));
      Ok(Render(ParseDecimal(u)))
    else
      Err(MalformedNumber)
  }

  /** On numeric text the trim succeeds with the same number, at a scale
      no larger, in its shortest form. */
  lemma TrimTrailingZeroesValue(s: string)
    requires IsNumeric(s)
    ensures var r := TrimTrailingZeroes(s);
            r.Ok? &&
            var d, e := ParseDecimal(s), ParseDecimal(r.value);
            RealValue(e) == RealValue(d) && e.scale <= d.scale && IsTrimmed(e)
  {
    TrimNumeric(s);
    ParseRender(ParseDecimal(TrimText(s)));
  }

  lemma ScaledUnits(x: int, y: int, s: nat)
    requires RealValue(Decimal(x, s)) == RealValue(Decimal(y, s))
    ensures x == y
  {
    var p := Pow(10, s) as real;
    assert x as real == (x as real / p) * p;
    assert y as real == (y as real / p) * p;
  }

  lemma TimesTen(k: int)
    ensures (k * 10) % 10 == 0
  {
  }

  lemma TrimmedUniqueOrdered(a: Decimal, b: Decimal)
    requires IsTrimmed(a) && IsTrimmed(b) && RealValue(a) == RealValue(b)
    requires a.scale <= b.scale
    ensures a == b
  {
    var z := b.scale - a.scale;
    ScaleCancel(a.units, a.scale, z);
    ScaledUnits(a.units * Pow(10, z), b.units, b.scale);
    if z > 0 {
      assert Pow(10, z) == 10 * Pow(10, z - 1);
      MulAssoc(a.units, Pow(10, z - 1), 10);
      assert b.units == (a.units * Pow(10, z - 1)) * 10;
      TimesTen(a.units * Pow(10, z - 1));
    }
  }

  /** Two decimals in shortest form with the same value are the same
      decimal: the trimmed form of a number is unique. */
  lemma TrimmedUnique(a: Decimal, b: Decimal)
    requires IsTrimmed(a) && IsTrimmed(b)
    ensures RealValue(a) == RealValue(b) <==> a == b
  {
    if RealValue(a) == RealValue(b) {
      if a.scale <= b.scale {
        TrimmedUniqueOrdered(a, b);
      } else {
        TrimmedUniqueOrdered(b, a);
      }
    }
  }

  /** On numeric text trimming is idempotent: the text it returns trims to
      itself. */
  lemma TrimTrailingZeroesIdempotent(s: string)
    requires IsNumeric(s)
    ensures TrimTrailingZeroes(s).Ok?
    ensures TrimTrailingZeroes(TrimTrailingZeroes(s).value) == TrimTrailingZeroes(s)
  {
    TrimTrailingZeroesValue(s);
    var t := TrimTrailingZeroes(s).value;
    TrimTrailingZeroesValue(t);
    TrimmedUnique(ParseDecimal(t), ParseDecimal(TrimTrailingZeroes(t).value));
  }

  /** The number zero renders as "0", and only zero does. */
  lemma RenderZero()
    ensures Render(Decimal(0, 0)) == "0"
    ensures RealValue(Decimal(0, 0)) == 0.0
  {
    DecStringShape(0);
    assert Padded(Decimal(0, 0)) == "0";
  }

  /** The number step of `formatTrailingZeroes`: with trimming on, the
      decimal goes through `trimTrailingZeroes`; otherwise it is kept. */
  function FormatTrailingZeroes(d: Decimal, trim: bool): (r: Decimal)
    ensures RealValue(r) == RealValue(d)
    ensures !trim ==> r == d
    ensures trim ==> r.scale <= d.scale && IsTrimmed(r)
  {
    if trim then
      ParseRender(d);
      TrimTrailingZeroesValue(Render(d));
      ParseDecimal(TrimTrailingZeroes(Render(d)).value)
    else
      d
  }

  /** The primitive's text of a decimal starts with '-' exactly when the
      decimal is below zero, and without it is the text of the magnitude. */
  lemma RenderSign(n: Decimal)
    ensures IsNegative(Render(n)) <==> n.units < 0
    ensures IsNumeric(DropSign(Render(n)))
    ensures ParseDecimal(DropSign(Render(n))) == Decimal(IntAbs(n.units), n.scale)
  {
    var t := Compose(Whole(n), Fraction(n));
    RenderParts(n);
    assert t[0] == Whole(n)[0];
    SignShape(n.units < 0, t);
    ParseCompose(false, Whole(n), Fraction(n));
    assert Sign(false) + t == t;
  }

  /** `abs`: the text of the number with its leading '-' dropped, read
      back as a number. */
  function Abs(n: Decimal): (r: Decimal)
    ensures r == Decimal(IntAbs(n.units), n.scale)
  {
    var t := Render(n);
    RenderSign(n);
    if IsNegative(t) then ParseDecimal(DropSign(t)) else n
  }

  lemma NegatedQuotient(u: int, p: real)
    requires p > 0.0
    ensures (-u) as real / p == -(u as real / p)
  {
  }

  lemma QuotientSign(u: int, p: real)
    requires p > 0.0
    ensures u as real / p < 0.0 <==> u < 0
    ensures u as real / p > 0.0 <==> u > 0
  {
  }

  /** The absolute value is the distance from zero, and it renders without
      a sign. */
  lemma AbsValue(n: Decimal)
    ensures RealValue(Abs(n)) >= 0.0
    ensures RealValue(Abs(n)) == RealValue(n) || RealValue(Abs(n)) == -RealValue(n)
    ensures !IsNegative(Render(Abs(n)))
  {
    var p := Pow(10, n.scale) as real;
    QuotientSign(IntAbs(n.units), p);
    NegatedQuotient(n.units, p);
    RenderSign(Abs(n));
  }

  /** On numeric text, `isFloat` holds exactly when the number has digits
      after the '.': when its scale is positive. */
  lemma IsFloatScale(s: string)
    requires IsNumeric(s)
    ensures IsFloat(s) <==> ParseDecimal(s).scale > 0
  {
    if IsNegative(s) {
      assert s == "-" + DropSign(s);
      assert IsFloat(s) <==> IsFloat(DropSign(s));
    }
  }

  /** On numeric text, `isNegative` is the sign of the number, except that
      "-0" and the like are negative text for a zero. */
  lemma IsNegativeSign(s: string)
    requires IsNumeric(s)
    ensures RealValue(ParseDecimal(s)) < 0.0 <==> IsNegative(s) && ParseDecimal(s).units != 0
    ensures RealValue(ParseDecimal(s)) > 0.0 <==> !IsNegative(s) && ParseDecimal(s).units != 0
  {
    var d := ParseDecimal(s);
    QuotientSign(d.units, Pow(10, d.scale) as real);
  }

  /** `convertToNumber` on numeric text: the text is read as a number, and
      from then on the primitive's own text of that number stands for it,
      so "-0" goes on as "0" and "007" as "7". */
  function ConvertToNumber(s: string): (r: string)
    requires IsNumeric(s)
    ensures IsNumeric(r) && ParseDecimal(r) == ParseDecimal(s)
    ensures Render(ParseDecimal(r)) == r
  {
    ParseRender(ParseDecimal(s));
    Render(ParseDecimal(s))
  }

  /** The primitive's text of an integer is the canonical integer text. */
  lemma RenderInteger(x: int)
    ensures Render(Decimal(x, 0)) == IntToString(x)
  {
    var d := Decimal(x, 0);
    DecStringShape(IntAbs(x));
    assert Padded(d) == DecString(IntAbs(x));
    assert Whole(d) == Padded(d) && Fraction(d) == "";
  }

  /** Canonical integer text reads as that integer at scale 0, and
      converting it changes nothing. */
  lemma ConvertInteger(x: int)
    ensures IsNumeric(IntToString(x)) && ParseDecimal(IntToString(x)) == Decimal(x, 0)
    ensures ConvertToNumber(IntToString(x)) == IntToString(x)
  {
    RenderInteger(x);
    ParseRender(Decimal(x, 0));
  }

  /** The converted text tells the number's kind: it has a '.' exactly for
      a positive scale, starts with '-' exactly for a number below zero
      (never for a zero such as "-0"), and at scale 0 it is the canonical
      text of the integer. */
  lemma ConvertedText(s: string)
    requires IsNumeric(s)
    ensures var c, d := ConvertToNumber(s), ParseDecimal(s);
            && (IsFloat(c) <==> d.scale > 0)
            && (IsNegative(c) <==> d.units < 0)
            && (d.scale == 0 ==> c == IntToString(d.units))
  {
    var c, d := ConvertToNumber(s), ParseDecimal(s);
    IsFloatScale(c);
    RenderSign(d);
    if d.scale == 0 {
      RenderInteger(d.units);
    }
  }

  lemma ZeroDigitsValue(s: string)
    requires forall i | 0 <= i < |s| :: s[i] == '0'
    ensures AllDigitChars(s) && DecimalValue(s) == 0
  {
    assert s == ZeroChars(|s|) + "";
    DecimalValueZerosPrefix(|s|, "");
    assert DecimalValue("") == 0;
  }

  /** Every way of writing zero ("-0", "00", "-0.00") converts to the
      primitive's text of zero, which never starts with '-'. */
  lemma ConvertZeroTexts(negative: bool, k: nat, j: nat)
    requires k >= 1
    ensures var s := Sign(negative) + Compose(ZeroChars(k), ZeroChars(j));
            IsNumeric(s) && ConvertToNumber(s) == Render(Decimal(0, j)) && !IsNegative(ConvertToNumber(s))
  {
    var w, f := ZeroChars(k), ZeroChars(j);
    ZeroDigitsValue(w + f);
    ParseCompose(negative, w, f);
    RenderSign(Decimal(0, j));
  }
}

=== FILE: hex.dfy ===
/** Hexadecimal text of arbitrarily large non-negative integers (`hexdec`
    and `dechex` of src/Number.php). Both recurse one hex digit at a time:
    `hexdec` as 16 * hexdec(prefix) + last digit, `dechex` as
    dechex(n div 16) followed by the digit of n mod 16. The arithmetic
    between the steps is exact integer arithmetic at scale 0. */
module Hex {
  import opened BaseConversion
  import opened NumericString

  const HexAlphabet: string := "0123456789abcdef"

  predicate IsHexChar(c: char) {
    ('0' <= c <= '9') || ('a' <= c <= 'f') || ('A' <= c <= 'F')
  }

  /** PHP `hexdec` on one character: its digit value, either case; a
      character that is not a hex digit is ignored and counts as 0. */
  function HexDigitValue(c: char): (d: nat)
    ensures d < 16
    ensures !IsHexChar(c) ==> d == 0
  {
    if '0' <= c <= '9' then c as int - '0' as int
    else if 'a' <= c <= 'f' then c as int - 'a' as int + 10
    else if 'A' <= c <= 'F' then c as int - 'A' as int + 10
    else 0
  }

  /** PHP `dechex` on a value below 16: one lower-case digit. */
  function HexChar(d: nat): (c: char)
    requires d < 16
    ensures IsHexChar(c) && c != 'x'
    ensures HexDigitValue(c) == d
  {
    HexAlphabet[d]
  }

  /** `str_replace('0x', '', s)`: every occurrence of "0x", found left to
      right without overlap, is removed; the text in between is kept. */
  function StripAll0x(s: string): (r: string)
    ensures |r| <= |s|
    ensures (forall i | 0 <= i < |s| :: s[i] != 'x') ==> r == s
  {
    if |s| >= 2 && s[0] == '0' && s[1] == 'x' then StripAll0x(s[2..])
    else if |s| == 0 then s
    else [s[0]] + StripAll0x(s[1..])
  }

  /** The number `hexdec` computes. The last character is read as a digit;
      the text before it, with every "0x" removed, is converted
      recursively; an empty rest means the last digit is the whole value.
      The empty text gives 0. */
  function HexValue(hex: string): (r: nat)
    ensures |hex| > 0 ==> r % 16 == HexDigitValue(hex[|hex| - 1])
    ensures |hex| <= 1 ==> r < 16
    decreases |hex|
  {
    var last := if |hex| == 0 then 0 else HexDigitValue(hex[|hex| - 1]);
    var rest := if |hex| == 0 then "" else StripAll0x(hex[..|hex| - 1]);
    if rest == "" then last
    else
      DivModUnique(HexValue(rest), last, 16);
      16 * HexValue(rest) + last
  }

  /** `hexdec`: the decimal text of the number a hex text stands for. */
  function Hexdec(hex: string): (r: string)
    ensures AllDigitChars(r) && DecimalValue(r) == HexValue(hex)
    ensures IsCanonicalInt(r)
  {
    DecStringValue(HexValue(hex));
    IntToStringRoundTrip(HexValue(hex));
    DecString(HexValue(hex))
  }

  /** `dechex` on a non-negative integer: the digit of n mod 16 appended to
      the text of n div 16, which is left out once the quotient is 0. */
  function Dechex(n: nat): (r: string)
    ensures |r| >= 1
    ensures forall i | 0 <= i < |r| :: IsHexChar(r[i]) && r[i] != 'x'
    decreases n
  {
    var q := n / 16;
    var c := HexChar(n % 16);
    if q == 0 then [c] else Dechex(q) + [c]
  }

  /** Digit values of a hex text, one per character. */
  function HexDigitsOf(s: string): (ds: seq<nat>)
    ensures |ds| == |s| && IsDigits(ds, 16)
  {
    seq(|s|, i requires 0 <= i < |s| => HexDigitValue(s[i]))
  }

  /** Lower-case hex text of a digit string. */
  function HexString(ds: seq<nat>): (s: string)
    requires IsDigits(ds, 16)
    ensures |s| == |ds|
    ensures forall i | 0 <= i < |s| :: s[i] != 'x'
  {
    seq(|ds|, i requires 0 <= i < |ds| => HexChar(ds[i]))
  }

  /** A hex text with no 'x' is read positionally: `HexValue` agrees with
      the base-16 value of its digits. */
  lemma {:induction false} HexValuePositional(s: string)
    requires forall i | 0 <= i < |s| :: s[i] != 'x'
    ensures HexValue(s) == Value(HexDigitsOf(s), 16)
    decreases |s|
  {
    if |s| > 0 {
      var t := s[..|s| - 1];
      var d := HexDigitValue(s[|s| - 1]);
      assert StripAll0x(t) == t;
      assert HexDigitsOf(s) == HexDigitsOf(t) + [d];
      ValueSnoc(HexDigitsOf(t), d, 16);
      if t != "" {
        HexValuePositional(t);
      } else {
        assert HexDigitsOf(t) == [];
      }
    }
  }

  /** `dechex` writes the base-16 digits `dec2bin` would produce. */
  lemma {:induction false} DechexDigits(n: nat)
    ensures Dechex(n) == HexString(Digits(n, 16))
    decreases n
  {
    var q := n / 16;
    if q == 0 {
      if n != 0 {
        assert Digits(n, 16) == DigitLoop(0, 16) + [n % 16];
      }
    } else {
      DechexDigits(q);
      assert Digits(n, 16) == DigitLoop(q, 16) + [n % 16];
      assert Digits(q, 16) == DigitLoop(q, 16);
    }
  }

  lemma HexDigitsOfString(ds: seq<nat>)
    requires IsDigits(ds, 16)
    ensures HexDigitsOf(HexString(ds)) == ds
  {
  }

  /** Round trip: `hexdec(dechex(n)) == n` for every n >= 0. */
  lemma {:induction false} HexdecDechex(n: nat)
    ensures HexValue(Dechex(n)) == n
    ensures Hexdec(Dechex(n)) == DecString(n)
  {
    DechexDigits(n);
    var ds := Digits(n, 16);
    HexValuePositional(HexString(ds));
    HexDigitsOfString(ds);
    DigitsValue(n, 16);
  }

  /** Lower-case hex text without a leading zero digit, as `dechex`
      prints it. */
  predicate IsCanonicalHex(s: string) {
    && |s| >= 1
    && (forall i | 0 <= i < |s| :: '0' <= s[i] <= '9' || 'a' <= s[i] <= 'f')
    && (s[0] != '0' || |s| == 1)
  }

  /** `dechex` always prints canonical hex text, and "0" only for 0. */
  lemma {:induction false} DechexCanonical(n: nat)
    ensures IsCanonicalHex(Dechex(n))
    ensures Dechex(n) == "0" <==> n == 0
  {
    DechexDigits(n);
    var ds := Digits(n, 16);
    assert Dechex(n)[0] == HexChar(ds[0]);
    if n == 0 {
      assert Dechex(n) == [HexChar(0)];
    }
  }

  lemma HexStringOfDigits(s: string)
    requires forall i | 0 <= i < |s| :: '0' <= s[i] <= '9' || 'a' <= s[i] <= 'f'
    ensures HexString(HexDigitsOf(s)) == s
  {
  }

  /** Among lower-case hex digits only '0' reads as 0. */
  lemma HexDigitZero(c: char)
    requires '0' <= c <= '9' || 'a' <= c <= 'f'
    ensures HexDigitValue(c) == 0 ==> c == '0'
  {
  }

  /** Round trip the other way: `dechex(hexdec(s)) == s` for canonical hex
      text. */
  lemma DechexHexdec(s: string)
    requires IsCanonicalHex(s)
    ensures Dechex(HexValue(s)) == s
  {
    var ds := HexDigitsOf(s);
    HexValuePositional(s);
    HexDigitZero(s[0]);
    assert IsCanonical(ds, 16);
    DigitsOfCanonical(ds, 16);
    DechexDigits(HexValue(s));
    HexStringOfDigits(s);
  }

  /** A leading "0x" does not change the value. */
  lemma HexPrefixIgnored(s: string)
    ensures HexValue("0x" + s) == HexValue(s)
  {
    var h := "0x" + s;
    if |s| == 0 {
      assert h[..|h| - 1] == "0";
      assert StripAll0x("0") == "0";
      assert HexValue("0") == 0;
    } else {
      assert h[..|h| - 1] == "0x" + s[..|s| - 1];
      assert h[|h| - 1] == s[|s| - 1];
    }
  }

  /** Text that cannot hold or begin a "0x": no 'x', and no '0' at its
      end. */
  predicate IsPlainHead(a: string) {
    (forall i | 0 <= i < |a| :: a[i] != 'x') && (|a| == 0 || a[|a| - 1] != '0')
  }

  /** One character that does not start a "0x" is kept. */
  lemma StripAll0xKeep(c: char, rest: string)
    requires c != 'x' && (c == '0' ==> |rest| == 0 || rest[0] != 'x')
    ensures StripAll0x([c] + rest) == [c] + StripAll0x(rest)
  {
    assert ([c] + rest)[1..] == rest;
  }

  /** The first character of a plain head is kept, and what follows it is
      a plain head again. */
  lemma StripAll0xFirst(a: string, t: string)
    requires IsPlainHead(a) && |a| > 0
    ensures IsPlainHead(a[1..])
    ensures StripAll0x(a + t) == [a[0]] + StripAll0x(a[1..] + t)
  {
    var h := a[1..];
    if |h| > 0 {
      assert h[|h| - 1] == a[|a| - 1];
    }
    assert a + t == [a[0]] + (h + t);
    if a[0] == '0' {
      assert (h + t)[0] == a[1];
    }
    StripAll0xKeep(a[0], h + t);
  }

  /** Appending to a non-empty text is appending after its first character. */
  lemma ConsAppend(a: string, r: string)
    requires |a| > 0
    ensures a + r == [a[0]] + (a[1..] + r)
  {
    assert a == [a[0]] + a[1..];
  }

  /** A plain head is kept as it is, and the removal goes on after it. */
  lemma {:induction false} StripAll0xHead(a: string, t: string)
    requires IsPlainHead(a)
    ensures StripAll0x(a + t) == a + StripAll0x(t)
    decreases |a|
  {
    if |a| > 0 {
      var h, r := a[1..], StripAll0x(t);
      StripAll0xFirst(a, t);
      StripAll0xHead(h, t);
      ConsAppend(a, r);
    } else {
      assert a + t == t;
    }
  }

  /** `str_replace` removes a "0x" wherever it stands after a plain head:
      the text around it is kept and the removal goes on after it. */
  lemma StripAll0xSplit(a: string, t: string)
    requires IsPlainHead(a)
    ensures StripAll0x(a + "0x" + t) == a + StripAll0x(t)
  {
    assert a + "0x" + t == a + ("0x" + t);
    StripAll0xHead(a, "0x" + t);
    assert ("0x" + t)[2..] == t;
  }

  /** Two texts with the same last character and the same text before it
      once "0x" is removed have the same value. */
  predicate SameTail(s: string, u: string) {
    && |s| > 0 && |u| > 0 && s[|s| - 1] == u[|u| - 1]
    && StripAll0x(s[..|s| - 1]) == StripAll0x(u[..|u| - 1])
  }

  lemma HexValueSameTail(s: string, u: string)
    requires SameTail(s, u)
    ensures HexValue(s) == HexValue(u)
  {
  }

  /** With a "0x" after a plain head, the text before the last character
      is the same once "0x" is removed as without it. */
  lemma InnerPrefixRests(a: string, t: string)
    requires IsPlainHead(a) && |t| > 0
    ensures SameTail(a + "0x" + t, a + t)
  {
    var s, u := a + "0x" + t, a + t;
    var t' := t[..|t| - 1];
    assert StripAll0x(s[..|s| - 1]) == a + StripAll0x(t') by {
      assert s[..|s| - 1] == a + "0x" + t';
      StripAll0xSplit(a, t');
    }
    assert StripAll0x(u[..|u| - 1]) == a + StripAll0x(t') by {
      assert u[..|u| - 1] == a + t';
      StripAll0xHead(a, t');
    }
  }

  /** A "0x" after a plain head and before the last digit does not change
      the value: "ff0xff" is read as "ffff". */
  lemma HexValueInnerPrefix(a: string, t: string)
    requires IsPlainHead(a) && |t| > 0
    ensures HexValue(a + "0x" + t) == HexValue(a + t)
  {
    InnerPrefixRests(a, t);
    HexValueSameTail(a + "0x" + t, a + t);
  }

  /** A lower-case hex letter in upper case; every other character as it
      is ('x' included, so "0x" stays "0x"). */
  function UpperChar(c: char): (u: char)
    ensures HexDigitValue(u) == HexDigitValue(c)
    ensures u == '0' <==> c == '0'
    ensures u == 'x' <==> c == 'x'
  {
    if 'a' <= c <= 'f' then (c as int - 32) as char else c
  }

  /** The text with its lower-case hex letters in upper case. */
  function UpperHex(s: string): (r: string)
    ensures |r| == |s|
  {
    seq(|s|, i requires 0 <= i < |s| => UpperChar(s[i]))
  }

  /** Removing "0x" commutes with upper-casing the hex letters. */
  lemma {:induction false} StripUpper(s: string)
    ensures StripAll0x(UpperHex(s)) == UpperHex(StripAll0x(s))
    decreases |s|
  {
    var u := UpperHex(s);
    if |s| >= 2 && s[0] == '0' && s[1] == 'x' {
      assert u[2..] == UpperHex(s[2..]);
      StripUpper(s[2..]);
    } else if |s| > 0 {
      assert u[1..] == UpperHex(s[1..]);
      StripUpper(s[1..]);
      assert UpperHex([s[0]] + StripAll0x(s[1..])) == [UpperChar(s[0])] + UpperHex(StripAll0x(s[1..]));
    }
  }

  lemma UpperHexPrefix(s: string)
    requires |s| > 0
    ensures UpperHex(s)[..|s| - 1] == UpperHex(s[..|s| - 1])
  {
  }

  /** `hexdec` reads upper-case and lower-case digits alike: upper-casing
      the hex letters of any text leaves its value unchanged. */
  lemma {:induction false} HexdecCaseInsensitive(s: string)
    ensures HexValue(UpperHex(s)) == HexValue(s)
    ensures Hexdec(UpperHex(s)) == Hexdec(s)
    decreases |s|
  {
    var u := UpperHex(s);
    assert HexValue(u) == HexValue(s) by {
      if |s| > 0 {
        var t := s[..|s| - 1];
        var rest := StripAll0x(t);
        assert StripAll0x(u[..|u| - 1]) == UpperHex(rest) by {
          UpperHexPrefix(s);
          StripUpper(t);
        }
        if rest != "" {
          HexdecCaseInsensitive(rest);
        }
      }
    }
  }
}

=== FILE: numeric_string.dfy ===
/** The string-level helpers of src/Number.php: `isFloat`, `isNegative`,
    `getDecimalsLength`, and the string steps of `abs` and
    `trimTrailingZeroes`, together with the decimal text of integers that
    the primitive decimal type prints and parses. */
module NumericString {
  import opened BaseConversion

  predicate IsDigitChar(c: char) {
    '0' <= c <= '9'
  }

  predicate AllDigitChars(s: string) {
    forall i | 0 <= i < |s| :: IsDigitChar(s[i])
  }

  function DigitChar(d: nat): (c: char)
    requires d < 10
    ensures IsDigitChar(c)
  {
    ('0' as int + d) as char
  }

  function DigitsToChars(ds: seq<nat>): (s: string)
    requires IsDigits(ds, 10)
    ensures |s| == |ds| && AllDigitChars(s)
  {
    seq(|ds|, i requires 0 <= i < |ds| => DigitChar(ds[i]))
  }

  function CharsToDigits(s: string): (ds: seq<nat>)
    requires AllDigitChars(s)
    ensures |ds| == |s| && IsDigits(ds, 10)
  {
    seq(|s|, i requires 0 <= i < |s| => (s[i] as int - '0' as int))
  }

  lemma CharsOfDigits(ds: seq<nat>)
    requires IsDigits(ds, 10)
    ensures CharsToDigits(DigitsToChars(ds)) == ds
  {
  }

  lemma DigitsOfChars(s: string)
    requires AllDigitChars(s)
    ensures DigitsToChars(CharsToDigits(s)) == s
  {
  }

  /** The decimal text of a natural number, as the primitive prints an
      integer at scale 0. */
  function DecString(n: nat): (s: string)
    ensures |s| >= 1 && AllDigitChars(s)
  {
    DigitsToChars(Digits(n, 10))
  }

  /** The number a run of decimal digits stands for. */
  function DecimalValue(s: string): nat
    requires AllDigitChars(s)
  {
    Value(CharsToDigits(s), 10)
  }

  lemma DecStringValue(n: nat)
    ensures DecimalValue(DecString(n)) == n
  {
    CharsOfDigits(Digits(n, 10));
    DigitsValue(n, 10);
  }

  /** A single non-zero digit prints as itself. */
  lemma DecStringDigit(d: nat)
    requires 0 < d < 10
    ensures DecString(d) == [DigitChar(d)]
  {
    assert Digits(d, 10) == DigitLoop(0, 10) + [d];
  }

  /** Printing peels off the last digit. */
  lemma DecStringSnoc(n: nat)
    requires n >= 10
    ensures DecString(n) == DecString(n / 10) + [DigitChar(n % 10)]
  {
    var q := n / 10;
    assert Digits(n, 10) == DigitLoop(q, 10) + [n % 10];
    assert Digits(q, 10) == DigitLoop(q, 10);
  }

  /** `isFloat`: the text contains a '.' somewhere. */
  predicate IsFloat(s: string)
  {
    '.' in s
  }

  /** `isNegative`: `strncmp('-', s, 1)` compares one character, so the
      text is negative exactly when "-" is a prefix of it. */
  predicate IsNegative(s: string)
  {
    |s| > 0 && s[0] == '-'
  }

  /** The text after one leading '-': the string step of `abs`, before its
      result is read back as a number. */
  function DropSign(s: string): (r: string)
    ensures IsNegative(s) ==> s == "-" + r
    ensures !IsNegative(s) ==> r == s
  {
    if IsNegative(s) then s[1..] else s
  }

  /** Text of an integer: an optional '-' and at least one digit. */
  predicate IsIntegerText(s: string) {
    var t := DropSign(s);
    |t| >= 1 && AllDigitChars(t)
  }

  /** The integer an integer text stands for. */
  function IntValue(s: string): int
    requires IsIntegerText(s)
  {
    var m: int := DecimalValue(DropSign(s));
    if IsNegative(s) then -m else m
  }

  function IntAbs(x: int): nat {
    if x < 0 then -x else x
  }

  /** The primitive's text of an integer: no leading zeros, no "-0". */
  function IntToString(x: int): (s: string)
  {
    if x < 0 then "-" + DecString(-x) else DecString(x)
  }

  /** Canonical integer text: as `IntToString` produces it. */
  predicate IsCanonicalInt(s: string) {
    var t := DropSign(s);
    && IsIntegerText(s)
    && (t[0] != '0' || |t| == 1)
    && !(IsNegative(s) && t == "0")
  }

  lemma DecStringShape(n: nat)
    ensures DecString(n)[0] != '0' || DecString(n) == "0"
    ensures DecString(n) == "0" <==> n == 0
  {
    var ds := Digits(n, 10);
    assert DecString(n)[0] == DigitChar(ds[0]);
    if n == 0 {
      assert DecString(n) == [DigitChar(0)];
    } else {
      assert DecString(n)[0] != '0';
    }
  }

  /** Integer text round trip, one way: printing then parsing gives the
      integer back, and the printed text is canonical. */
  lemma IntToStringRoundTrip(x: int)
    ensures IsCanonicalInt(IntToString(x))
    ensures IntValue(IntToString(x)) == x
  {
    var n: nat := if x < 0 then -x else x;
    DecStringValue(n);
    DecStringShape(n);
    if x < 0 {
      assert DropSign(IntToString(x)) == DecString(n);
    }
  }

  /** Integer text round trip, other way: parsing then printing gives the
      canonical text back. */
  lemma IntValueRoundTrip(s: string)
    requires IsCanonicalInt(s)
    ensures IntToString(IntValue(s)) == s
  {
    var t := DropSign(s);
    var ds := CharsToDigits(t);
    assert ds[0] == 0 ==> t[0] == '0';
    assert IsCanonical(ds, 10);
    DigitsOfCanonical(ds, 10);
    DigitsOfChars(t);
    assert DecString(DecimalValue(t)) == t;
    if IsNegative(s) {
      assert DecimalValue(t) != 0 by {
        if DecimalValue(t) == 0 {
          DecStringShape(0);
        }
      }
    }
  }

  /** Dropping the sign of the primitive's text of an integer gives the
      text of its magnitude. */
  lemma AbsOfIntText(x: int)
    ensures DropSign(IntToString(x)) == IntToString(if x < 0 then -x else x)
  {
    DecStringShape(if x < 0 then -x else x);
  }

  /** Position of the first '.', or |s| when there is none. */
  function DotIndex(s: string): (k: nat)
    ensures k <= |s|
    ensures '.' !in s[..k]
    ensures k < |s| ==> s[k] == '.'
  {
    if |s| == 0 || s[0] == '.' then 0
    else
      var k := 1 + DotIndex(s[1..]);
      assert s[..k] == [s[0]] + s[1..][..k - 1];
      k
  }

  /** Well-formed numeric text, the shape of a decimal value's text:
      an optional '-', one or more digits, and optionally a '.' followed by
      one or more digits. */
  predicate IsNumeric(s: string) {
    var t := DropSign(s);
    var k := DotIndex(t);
    && k >= 1
    && AllDigitChars(t[..k])
    && (k == |t| || (k + 1 < |t| && AllDigitChars(t[k + 1..])))
  }

  lemma NumericWithoutDotIsInteger(s: string)
    requires IsNumeric(s) && !IsFloat(s)
    ensures IsIntegerText(s)
  {
    var t := DropSign(s);
    assert t[..|t|] == t;
  }

  lemma IntTextIsNumeric(x: int)
    ensures IsNumeric(IntToString(x)) && !IsFloat(IntToString(x))
  {
    var t := DropSign(IntToString(x));
    AbsOfIntText(x);
    assert AllDigitChars(t);
    assert '.' !in t;
    assert t[..|t|] == t;
    if x < 0 {
      assert IntToString(x) == "-" + t;
    }
  }

  /** The length of the run after the last '.' (`strcspn(strrev(s), '.')`). */
  function CharsAfterLastDot(s: string): (r: nat)
    ensures r <= |s|
    ensures '.' !in s[|s| - r..]
    ensures r < |s| ==> s[|s| - 1 - r] == '.'
  {
    if |s| == 0 || s[|s| - 1] == '.' then 0
    else
      var r := 1 + CharsAfterLastDot(s[..|s| - 1]);
      assert s[|s| - r..] == s[..|s| - 1][|s| - r..] + [s[|s| - 1]];
      r
  }

  /** `getDecimalsLength`: the number of characters after the last '.',
      and 0 when there is no '.'. */
  function GetDecimalsLength(s: string): (r: nat)
    ensures IsFloat(s) ==> r < |s| && s[|s| - 1 - r] == '.' && '.' !in s[|s| - r..]
    ensures !IsFloat(s) ==> r == 0
  {
    if IsFloat(s) then
      var r := CharsAfterLastDot(s);
      r
    else 0
  }

  /** PHP `rtrim(s, c)` for a single character `c`. */
  function RTrim(s: string, c: char): (r: string)
    ensures |r| <= |s| && r == s[..|r|]
    ensures |r| == 0 || r[|r| - 1] != c
    ensures forall i | |r| <= i < |s| :: s[i] == c
  {
    if |s| > 0 && s[|s| - 1] == c then RTrim(s[..|s| - 1], c) else s
  }

  /** The string steps of `trimTrailingZeroes`: on text with a '.', strip
      trailing '0's; then strip trailing '.'s; an empty result becomes "0".
      The function then reads this text back as a number (see
      `Decimals.TrimTrailingZeroes`). */
  function TrimText(s: string): (r: string)
    ensures |r| >= 1 && r[|r| - 1] != '.'
    ensures !IsFloat(s) && s != "" ==> r == s
    ensures (|r| <= |s| && r == s[..|r|]) || (r == "0" && forall i | 0 <= i < |s| :: s[i] == '0' || s[i] == '.')
    ensures forall i | |r| <= i < |s| :: s[i] == '0' || s[i] == '.'
    ensures IsFloat(s) && |r| <= |s| && r == s[..|r|] ==>
              && (forall i, j | |r| <= i < j < |s| :: !(s[i] == '0' && s[j] == '.'))
              && (r[|r| - 1] == '0' ==> '.' in s[|r|..])
  {
    var t := if IsFloat(s) then RTrim(s, '0') else s;
    var u := RTrim(t, '.');
    assert !IsFloat(s) && s != "" ==> s[|s| - 1] != '.';
    if IsFloat(s) then
      RTrimPair(s);
      if u == "" then "0" else u
    else if u == "" then "0" else u
  }

  /** Where the two `rtrim` calls stop: the removed tail is '.'s followed
      by '0's, and a kept text ending in '0' lost at least one '.'. When
      nothing is kept, the text starts with '.'. */
  lemma RTrimPair(s: string)
    requires IsFloat(s)
    ensures var u := RTrim(RTrim(s, '0'), '.');
            && (u == "" ==> s[0] == '.')
            && (forall i, j | |u| <= i < j < |s| :: !(s[i] == '0' && s[j] == '.'))
            && (u != "" && u[|u| - 1] == '0' ==> '.' in s[|u|..])
  {
    var t := RTrim(s, '0');
    var u := RTrim(t, '.');
    assert forall i | |u| <= i < |t| :: s[i] == '.' by {
      assert forall i | |u| <= i < |t| :: s[i] == t[i];
    }
    if u == "" {
      assert t != "";
      assert s[0] == t[0];
    }
    if u != "" && u[|u| - 1] == '0' {
      assert |u| < |t|;
      assert s[|u|] == '.';
      assert s[|u|..][0] == '.';
    }
  }

  /** No two '.' characters. */
  predicate AtMostOneDot(s: string) {
    forall i, j | 0 <= i < j < |s| :: !(s[i] == '.' && s[j] == '.')
  }

  /** On text with at most one '.', the trimmed text with a '.' no longer
      ends in '0', and trimming again changes nothing. */
  lemma TrimTextIdempotent(s: string)
    requires AtMostOneDot(s)
    ensures var r := TrimText(s);
            (IsFloat(r) ==> r[|r| - 1] != '0') && TrimText(r) == r
  {
    var r := TrimText(s);
    if IsFloat(s) {
      var t := RTrim(s, '0');
      if IsFloat(r) {
        var k :| 0 <= k < |r| && r[k] == '.';
        assert r == s[..|r|];
        assert r == t;
        assert r[|r| - 1] != '0';
        assert RTrim(r, '0') == r;
        assert RTrim(r, '.') == r;
      } else {
        assert TrimText(r) == r by {
          if r != "" {
            assert r[|r| - 1] != '.';
          }
        }
      }
    }
  }
}

=== FILE: reducers.dfy ===
/** The small static reducers and guards of src/Number.php: `max` and `min`
    over `parseValues`, `fact`, the argument checks of `powMod`, and the
    floor-based `modulo` formula. Numbers are the primitive's decimals; the
    comparison the primitive makes is comparison of their values. */
module Reducers {
  import opened Wrappers
  import opened BaseConversion
  import opened NumericString
  import opened Decimals

  /** One argument of `max`/`min`: a number, or an array of numbers. */
  datatype Arg = Scalar(number: Decimal) | List(items: seq<Decimal>)

  /** The number an argument converts to. An array that is not the first
      argument is cast to the text "Array", which has no digits and
      converts to zero. */
  function Element(a: Arg): Decimal {
    match a
    case Scalar(d) => d
    case List(_) => Decimal(0, 0)
  }

  /** Every argument converted in order. */
  function Elements(args: seq<Arg>): (xs: seq<Decimal>) {
    seq(|args|, i requires 0 <= i < |args| => Element(args[i]))
  }

  /** `parseValues` followed by the per-element conversion: when the first
      argument is an array it replaces the whole argument list; otherwise
      every argument is converted in order. */
  function ParseValues(args: seq<Arg>): seq<Decimal> {
    if |args| > 0 && args[0].List? then args[0].items else Elements(args)
  }

  /** Index k holds the first of the greatest values of xs. */
  predicate IsFirstMax(xs: seq<Decimal>, k: int) {
    && 0 <= k < |xs|
    && (forall j | 0 <= j < |xs| :: RealValue(xs[j]) <= RealValue(xs[k]))
    && (forall j | 0 <= j < k :: RealValue(xs[j]) < RealValue(xs[k]))
  }

  /** Index k holds the first of the least values of xs. */
  predicate IsFirstMin(xs: seq<Decimal>, k: int) {
    && 0 <= k < |xs|
    && (forall j | 0 <= j < |xs| :: RealValue(xs[k]) <= RealValue(xs[j]))
    && (forall j | 0 <= j < k :: RealValue(xs[k]) < RealValue(xs[j]))
  }

  /** `max`: a fold that replaces the running result only when the next
      number is strictly greater, so the first of equal maxima is kept
      (1.0 and 1.00 are equal, and whichever comes first is returned). An
      empty call returns null. */
  method Max(args: seq<Arg>) returns (r: Option<Decimal>)
    ensures r.None? <==> |args| == 0 || (args[0].List? && |args[0].items| == 0)
    ensures |args| > 0 && args[0].List? && r.Some? ==>
              exists k :: IsFirstMax(args[0].items, k) && args[0].items[k] == r.value
    ensures |args| > 0 && args[0].Scalar? ==>
              r.Some? && exists k :: IsFirstMax(Elements(args), k) && Element(args[k]) == r.value
  {
    var xs := ParseValues(args);
    if |xs| == 0 {
      return None;
    }
    var k := 0;
    var i := 1;
    while i < |xs|
      invariant 1 <= i <= |xs|
      invariant 0 <= k < i
      invariant forall j | 0 <= j < i :: RealValue(xs[j]) <= RealValue(xs[k])
      invariant forall j | 0 <= j < k :: RealValue(xs[j]) < RealValue(xs[k])
    {
      if RealValue(xs[k]) < RealValue(xs[i]) {
        k := i;
      }
      i := i + 1;
    }
    assert IsFirstMax(xs, k);
    return Some(xs[k]);
  }

  /** `min`: the mirror of `max`; replacement only on a strictly smaller
      number. */
  method Min(args: seq<Arg>) returns (r: Option<Decimal>)
    ensures r.None? <==> |args| == 0 || (args[0].List? && |args[0].items| == 0)
    ensures |args| > 0 && args[0].List? && r.Some? ==>
              exists k :: IsFirstMin(args[0].items, k) && args[0].items[k] == r.value
    ensures |args| > 0 && args[0].Scalar? ==>
              r.Some? && exists k :: IsFirstMin(Elements(args), k) && Element(args[k]) == r.value
  {
    var xs := ParseValues(args);
    if |xs| == 0 {
      return None;
    }
    var k := 0;
    var i := 1;
    while i < |xs|
      invariant 1 <= i <= |xs|
      invariant 0 <= k < i
      invariant forall j | 0 <= j < i :: RealValue(xs[k]) <= RealValue(xs[j])
      invariant forall j | 0 <= j < k :: RealValue(xs[k]) < RealValue(xs[j])
    {
      if RealValue(xs[i]) < RealValue(xs[k]) {
        k := i;
      }
      i := i + 1;
    }
    assert IsFirstMin(xs, k);
    return Some(xs[k]);
  }

  /** The first maximum is unique: the element `max` returns is determined
      by the list, position included. */
  lemma FirstMaxUnique(xs: seq<Decimal>, i: int, k: int)
    requires IsFirstMax(xs, i) && IsFirstMax(xs, k)
    ensures i == k
  {
    assert RealValue(xs[i]) <= RealValue(xs[k]) && RealValue(xs[k]) <= RealValue(xs[i]);
  }

  lemma FirstMinUnique(xs: seq<Decimal>, i: int, k: int)
    requires IsFirstMin(xs, i) && IsFirstMin(xs, k)
    ensures i == k
  {
    assert RealValue(xs[i]) <= RealValue(xs[k]) && RealValue(xs[k]) <= RealValue(xs[i]);
  }

  /** n! as a product, with 0! = 1! = 1. */
  function Factorial(n: nat): (r: nat)
    ensures r >= 1
  {
    if n <= 1 then 1 else n * Factorial(n - 1)
  }

  lemma MultipleMod(c: nat, k: nat)
    requires k >= 1
    ensures (c * k) % k == 0
  {
    DivModUnique(c, 0, k);
  }

  lemma MulRegroup(n: nat, q: nat, k: nat)
    ensures n * (q * k) == (n * q) * k
  {
  }

  /** Every k in 1..n divides n!. */
  lemma {:induction false} FactorialDivisible(n: nat, k: nat)
    requires 1 <= k <= n
    ensures Factorial(n) % k == 0
    decreases n
  {
    var f := Factorial(n - 1);
    if k == n {
      if n > 1 {
        assert Factorial(n) == f * n;
        MultipleMod(f, n);
      }
    } else {
      FactorialDivisible(n - 1, k);
      DivMod(f, k);
      var q := f / k;
      assert f == q * k;
      assert Factorial(n) == n * (q * k);
      MulRegroup(n, q, k);
      MultipleMod(n * q, k);
    }
  }

  /** The loop of `fact`: starting from 1, multiply by 2, 3, ..., n. */
  method FactorialLoop(n: nat) returns (ret: nat)
    ensures ret == Factorial(n)
  {
    ret := 1;
    var i: nat := 2;
    while i <= n
      invariant 2 <= i && (i <= n + 1 || i == 2)
      invariant ret == Factorial(i - 1)
    {
      assert Factorial(i) == i * Factorial(i - 1);
      ret := ret * i;
      i := i + 1;
    }
  }

  /** `fact`: the argument is converted to a number first, so it is the
      number and not its spelling that is checked ("-0" is 0). A fraction
      is rejected first, then a number below zero; otherwise the product
      2 * 3 * ... * n is built up one factor at a time. */
  method Fact(s: string) returns (r: Result<string>)
    requires IsNumeric(s)
    ensures ParseDecimal(s).scale > 0 ==> r == Err(FactorialOfFraction)
    ensures ParseDecimal(s).scale == 0 && ParseDecimal(s).units < 0 ==> r == Err(FactorialOfNegative)
    ensures ParseDecimal(s).scale == 0 && ParseDecimal(s).units >= 0 ==>
              r == Ok(DecString(Factorial(ParseDecimal(s).units)))
  {
    var c := ConvertToNumber(s);
    ConvertedText(s);
    if IsFloat(c) {
      return Err(FactorialOfFraction);
    }
    if IsNegative(c) {
      return Err(FactorialOfNegative);
    }
    IntToStringRoundTrip(ParseDecimal(s).units);
    var n: nat := IntValue(c);
    var ret := FactorialLoop(n);
    return Ok(DecString(ret));
  }

  /** The argument checks of `powMod`, in order: the converted exponent's
      text starts with '-'; then the modulus, as given and without
      conversion, goes through `trimTrailingZeroes`, whose constructor
      refuses text that is not a number, and a result that prints as "0"
      is a zero modulus. */
  function PowModGuard(exponent: Decimal, modulus: string): (r: Option<Error>)
    ensures r == Some(NegativeExponent) <==> exponent.units < 0
    ensures r.Some? ==> r.value in {NegativeExponent, ZeroModulus, MalformedNumber}
  {
    RenderSign(exponent);
    if IsNegative(Render(exponent)) then Some(NegativeExponent)
    else
      match TrimTrailingZeroes(modulus)
      case Err(e) => Some(e)
      case Ok(t) => if t == "0" then Some(ZeroModulus) else None
  }

  /** Numeric text trims to "0" exactly when it stands for zero. */
  lemma TrimsToZero(s: string)
    requires IsNumeric(s)
    ensures TrimTrailingZeroes(s).Ok?
    ensures TrimTrailingZeroes(s).value == "0" <==> RealValue(ParseDecimal(s)) == 0.0
  {
    TrimTrailingZeroesValue(s);
    var t := TrimTrailingZeroes(s).value;
    var e := ParseDecimal(t);
    RenderZero();
    ParseRender(Decimal(0, 0));
    TrimmedUnique(e, Decimal(0, 0));
  }

  /** On a numeric modulus and a non-negative exponent, the checks reject
      exactly the moduli that stand for zero, however they are written
      ("0", "-0", "00", "0.000"), and pass every other one. */
  lemma PowModGuardComplete(exponent: Decimal, modulus: string)
    requires IsNumeric(modulus) && exponent.units >= 0
    ensures PowModGuard(exponent, modulus) == Some(ZeroModulus) <==> RealValue(ParseDecimal(modulus)) == 0.0
    ensures PowModGuard(exponent, modulus) == None <==> RealValue(ParseDecimal(modulus)) != 0.0
  {
    RenderSign(exponent);
    TrimsToZero(modulus);
  }

  /** Every way of writing zero is a zero modulus: any number of '0's
      before the '.', any number after it, with or without a '-' ("00",
      "-0", "000.000"), because the primitive prints them all as "0". */
  lemma PowModGuardZeroTexts(exponent: Decimal, negative: bool, k: nat, j: nat)
    requires exponent.units >= 0 && k >= 1
    ensures PowModGuard(exponent, Sign(negative) + Compose(ZeroChars(k), ZeroChars(j))) == Some(ZeroModulus)
  {
    var w, f := ZeroChars(k), ZeroChars(j);
    ZeroDigitsValue(w + f);
    ParseCompose(negative, w, f);
    var d := ParseDecimal(Sign(negative) + Compose(w, f));
    assert d.units == 0;
    QuotientSign(d.units, Pow(10, d.scale) as real);
    PowModGuardComplete(exponent, Sign(negative) + Compose(w, f));
  }

  /** The units of `d` counted at a finer scale. */
  function Aligned(d: Decimal, scale: nat): int
    requires d.scale <= scale
  {
    d.units * Pow(10, scale - d.scale)
  }

  /** The larger of two scales, at which the primitive subtracts. */
  function CommonScale(a: Decimal, b: Decimal): nat {
    if a.scale >= b.scale then a.scale else b.scale
  }

  /** Integer division rounded toward minus infinity (`floor(x / y)`). */
  function FloorDiv(x: int, y: int): int
    requires y != 0
  {
    if y > 0 then x / y else (-x) / (-y)
  }

  lemma NonZeroProduct(u: int, p: nat)
    requires u != 0 && p >= 1
    ensures u * p != 0 && (u * p > 0 <==> u > 0)
  {
  }

  /** `modulo`: a - m * floor(a / m), computed on both operands brought to
      their common scale. The result has the sign of the modulus. A zero
      modulus is a division by zero. */
  function Modulo(a: Decimal, m: Decimal): (r: Result<Decimal>)
    ensures r.Err? <==> m.units == 0
    ensures r.Err? ==> r.error == DivisionByZero
    ensures r.Ok? ==> r.value.scale == CommonScale(a, m)
  {
    if m.units == 0 then Err(DivisionByZero)
    else
      var s := CommonScale(a, m);
      var x, y := Aligned(a, s), Aligned(m, s);
      NonZeroProduct(m.units, Pow(10, s - m.scale));
      Ok(Decimal(x - y * FloorDiv(x, y), s))
  }

  lemma EuclidPos(x: int, y: int)
    requires y > 0
    ensures x - y * (x / y) == x % y
    ensures 0 <= x % y < y
  {
  }

  lemma NegMulInt(y: int, q: int)
    ensures y * q == -((-y) * q)
  {
  }

  /** x - y * floor(x / y) lies between 0 and y: 0 included, y excluded. */
  lemma FloorDivRange(x: int, y: int)
    requires y != 0
    ensures y > 0 ==> 0 <= x - y * FloorDiv(x, y) < y
    ensures y < 0 ==> y < x - y * FloorDiv(x, y) <= 0
  {
    if y > 0 {
      EuclidPos(x, y);
    } else {
      var q := (-x) / (-y);
      EuclidPos(-x, -y);
      NegMulInt(y, q);
    }
  }

  lemma MulSmall(k: int, y: int)
    requires y > 0 && -y < k * y < y
    ensures k == 0
  {
  }

  /** floor(x / y) is the only n whose remainder x - n * y is in range. */
  lemma FloorDivUnique(x: int, y: int, n: int, r: int)
    requires y != 0 && x == n * y + r
    requires y > 0 ==> 0 <= r < y
    requires y < 0 ==> y < r <= 0
    ensures FloorDiv(x, y) == n
  {
    var q := FloorDiv(x, y);
    FloorDivRange(x, y);
    var r0 := x - y * q;
    assert (n - q) * y == r0 - r;
    if y > 0 {
      MulSmall(n - q, y);
    } else {
      assert (n - q) * (-y) == r - r0;
      MulSmall(n - q, -y);
    }
  }

  /** At the common scale, the remainder lies between 0 and the modulus (0
      included, the modulus excluded) and differs from the dividend by a
      whole multiple of the modulus. */
  lemma ModuloRange(a: Decimal, m: Decimal)
    requires m.units != 0
    ensures var s := CommonScale(a, m);
            var x, y, r := Aligned(a, s), Aligned(m, s), Modulo(a, m).value.units;
            && (m.units > 0 ==> 0 <= r < y)
            && (m.units < 0 ==> y < r <= 0)
            && x - r == y * FloorDiv(x, y)
  {
    var s := CommonScale(a, m);
    var x, y := Aligned(a, s), Aligned(m, s);
    NonZeroProduct(m.units, Pow(10, s - m.scale));
    FloorDivRange(x, y);
  }

  /** The remainder is the unique value in range that differs from the
      dividend by a whole multiple of the modulus: any such n and r give
      exactly what `modulo` computes. */
  lemma ModuloUnique(a: Decimal, m: Decimal, n: int, r: int)
    requires m.units != 0
    requires Aligned(a, CommonScale(a, m)) == n * Aligned(m, CommonScale(a, m)) + r
    requires m.units > 0 ==> 0 <= r < Aligned(m, CommonScale(a, m))
    requires m.units < 0 ==> Aligned(m, CommonScale(a, m)) < r <= 0
    ensures Modulo(a, m) == Ok(Decimal(r, CommonScale(a, m)))
  {
    var s := CommonScale(a, m);
    var x, y := Aligned(a, s), Aligned(m, s);
    NonZeroProduct(m.units, Pow(10, s - m.scale));
    FloorDivUnique(x, y, n, r);
  }

  /** -7 mod 3 is 2 and 7 mod -3 is -2: the sign follows the modulus. */
  lemma ModuloExamples()
    ensures Modulo(Decimal(-7, 0), Decimal(3, 0)) == Ok(Decimal(2, 0))
    ensures Modulo(Decimal(7, 0), Decimal(-3, 0)) == Ok(Decimal(-2, 0))
    ensures Modulo(Decimal(55, 1), Decimal(2, 0)) == Ok(Decimal(15, 1))
  {
    ModuloUnique(Decimal(-7, 0), Decimal(3, 0), -3, 2);
    ModuloUnique(Decimal(7, 0), Decimal(-3, 0), -3, -2);
    assert Aligned(Decimal(2, 0), 1) == 20;
    ModuloUnique(Decimal(55, 1), Decimal(2, 0), 2, 15);
  }
}

=== FILE: scientific.dfy ===
/** The scientific-notation branch of `convertToNumber` (src/Number.php).
    Text such as "1.5E3" or "-2e-4" is matched into a mantissa, an exponent
    sign and exponent digits; the number is then the mantissa multiplied or
    divided by 10^exponent, computed by the primitive at scale
    exponent + decimals(mantissa), and finally passed through
    `formatTrailingZeroes`. The pattern matching itself is not modelled:
    `SciParts` holds what it captures. */
module Scientific {
  import opened BaseConversion
  import opened NumericString
  import opened Decimals

  /** The captures of `(-?(\d+\.)?\d+)E([+-]?)(\d+)`: the mantissa text,
      whether the exponent sign is '-', and the exponent's value. */
  datatype SciParts = SciParts(mantissa: string, negativeExponent: bool, exponent: nat)

  /** Integer division truncated toward zero, as the primitive divides. */
  function TruncDiv(x: int, y: int): int
    requires y != 0
  {
    var q: int := IntAbs(x) / IntAbs(y);
    if (x < 0) == (y < 0) then q else -q
  }

  /** The primitive's quotient at `scale`: a / b with the digits beyond
      `scale` dropped. */
  function DivAtScale(a: Decimal, b: Decimal, scale: nat): (r: Decimal)
    requires b.units != 0
    ensures r.scale == scale
  {
    Decimal(TruncDiv(a.units * Pow(10, b.scale) * Pow(10, scale), b.units * Pow(10, a.scale)), scale)
  }

  /** The primitive's product at `scale`: a * b with the digits beyond
      `scale` dropped. */
  function MulAtScale(a: Decimal, b: Decimal, scale: nat): (r: Decimal)
    ensures r.scale == scale
  {
    Decimal(TruncDiv(a.units * b.units * Pow(10, scale), Pow(10, a.scale + b.scale)), scale)
  }

  /** The arithmetic of the branch on a parsed mantissa `m` with
      `decimals` digits after its '.': 10^e is an integer; a '-' exponent
      divides by it and any other multiplies, both at scale e + decimals. */
  function ExpandAt(m: Decimal, negativeExponent: bool, e: nat, decimals: nat): Decimal {
    var pow := Decimal(Pow(10, e), 0);
    if negativeExponent then DivAtScale(m, pow, e + decimals) else MulAtScale(pow, m, e + decimals)
  }

  /** The number the branch computes, before formatting: the scale is the
      exponent plus the mantissa's decimals. */
  function Expand(p: SciParts): (r: Decimal)
    requires IsNumeric(p.mantissa)
    ensures r.scale == p.exponent + GetDecimalsLength(p.mantissa)
  {
    ExpandAt(ParseDecimal(p.mantissa), p.negativeExponent, p.exponent, GetDecimalsLength(p.mantissa))
  }

  /** The number the branch hands on: the expanded number, with trailing
      zeroes trimmed when the library's trim flag is set. */
  function ConvertScientific(p: SciParts, trim: bool): Decimal
    requires IsNumeric(p.mantissa)
  {
    FormatTrailingZeroes(Expand(p), trim)
  }

  /** x with the point moved e places right: x * 10^e. */
  function TimesPow10(x: real, e: nat): real {
    x * Pow(10, e) as real
  }

  /** x with the point moved e places left: x / 10^e. */
  function OverPow10(x: real, e: nat): real {
    x / Pow(10, e) as real
  }

  lemma TruncDivExact(x: int, k: int)
    requires k > 0
    ensures TruncDiv(x * k, k) == x
  {
    AbsMul(x, k);
    DivModUnique(IntAbs(x), 0, k);
  }

  lemma AbsMul(x: int, k: int)
    requires k > 0
    ensures IntAbs(x * k) == IntAbs(x) * k
    ensures x * k < 0 <==> x < 0
  {
  }

  lemma MulComm3(u: int, a: int, b: int)
    ensures u * (a * b) == u * a * b
    ensures a * u * (a * b) == (a * u * a) * b
  {
  }

  /** Dividing by 10^e at scale e + decimals(mantissa) loses nothing: the
      units stay, the scale grows by e. */
  lemma DivExact(m: Decimal, e: nat, decimals: nat)
    requires decimals == m.scale
    ensures DivAtScale(m, Decimal(Pow(10, e), 0), e + decimals) == Decimal(m.units, m.scale + e)
  {
    var p, q := Pow(10, e), Pow(10, m.scale);
    PowAdd(10, e, m.scale);
    assert Pow(10, e + decimals) == p * q;
    MulComm3(m.units, p, q);
    assert m.units * Pow(10, 0) * Pow(10, e + decimals) == m.units * (p * q);
    TruncDivExact(m.units, p * q);
  }

  /** Multiplying by 10^e at scale e + decimals(mantissa) loses nothing. */
  lemma MulExact(m: Decimal, e: nat, decimals: nat)
    requires decimals == m.scale
    ensures MulAtScale(Decimal(Pow(10, e), 0), m, e + decimals) ==
            Decimal(Pow(10, e) * m.units * Pow(10, e), m.scale + e)
  {
    var p, q := Pow(10, e), Pow(10, m.scale);
    PowAdd(10, e, m.scale);
    assert Pow(10, e + decimals) == p * q;
    MulComm3(m.units, p, q);
    assert p * m.units * Pow(10, e + decimals) == (p * m.units * p) * q;
    TruncDivExact(p * m.units * p, q);
  }

  lemma RealScaleUp(u: int, s: nat, k: int)
    ensures RealValue(Decimal(k * u, s)) == RealValue(Decimal(u, s)) * k as real
  {
    CastMul(k, u);
    MulOverDiv(u as real, k as real, Pow(10, s) as real);
  }

  lemma MulOverDiv(x: real, y: real, q: real)
    requires q != 0.0
    ensures (y * x) / q == (x / q) * y
  {
  }

  lemma RealScaleDown(u: int, s: nat, e: nat)
    ensures RealValue(Decimal(u, s + e)) == RealValue(Decimal(u, s)) / Pow(10, e) as real
  {
    PowAdd(10, s, e);
    DivByProduct(u as real, Pow(10, s + e), Pow(10, s), Pow(10, e));
  }

  lemma DivByProduct(x: real, c: int, a: int, b: int)
    requires a > 0 && b > 0 && c == a * b
    ensures x / c as real == (x / a as real) / b as real
  {
    CastMul(a, b);
    RealDivDiv(x, a as real, b as real);
  }

  lemma RealDivDiv(x: real, a: real, b: real)
    requires a > 0.0 && b > 0.0
    ensures x / (a * b) == (x / a) / b
  {
  }

  /** At scale e + scale(m) the arithmetic is exact: dividing keeps the
      units and moves the point e places; multiplying scales the units by
      10^e twice, once for the value and once for the longer scale. */
  lemma ExpandAtExact(m: Decimal, negativeExponent: bool, e: nat, decimals: nat)
    requires decimals == m.scale
    ensures negativeExponent ==> ExpandAt(m, negativeExponent, e, decimals) == Decimal(m.units, m.scale + e)
    ensures !negativeExponent ==>
              ExpandAt(m, negativeExponent, e, decimals) == Decimal(Pow(10, e) * m.units * Pow(10, e), m.scale + e)
  {
    if negativeExponent {
      DivExact(m, e, decimals);
    } else {
      MulExact(m, e, decimals);
    }
  }

  lemma ScaledUpValue(m: Decimal, e: nat)
    ensures RealValue(Decimal(Pow(10, e) * m.units * Pow(10, e), m.scale + e)) == TimesPow10(RealValue(m), e)
  {
    ScaleCancel(Pow(10, e) * m.units, m.scale, e);
    RealScaleUp(m.units, m.scale, Pow(10, e));
  }

  lemma ScaledDownValue(m: Decimal, e: nat)
    ensures RealValue(Decimal(m.units, m.scale + e)) == OverPow10(RealValue(m), e)
  {
    RealScaleDown(m.units, m.scale, e);
  }

  /** The arithmetic's value: the mantissa's value divided by 10^e for a
      '-' exponent and multiplied by it otherwise. */
  lemma ExpandAtValue(m: Decimal, negativeExponent: bool, e: nat, decimals: nat)
    requires decimals == m.scale
    ensures negativeExponent ==>
              RealValue(ExpandAt(m, negativeExponent, e, decimals)) == OverPow10(RealValue(m), e)
    ensures !negativeExponent ==>
              RealValue(ExpandAt(m, negativeExponent, e, decimals)) == TimesPow10(RealValue(m), e)
  {
    ExpandAtExact(m, negativeExponent, e, decimals);
    if negativeExponent {
      ScaledDownValue(m, e);
    } else {
      ScaledUpValue(m, e);
    }
  }

  /** The expansion is exact: at scale exponent + decimals(mantissa) a
      '-' exponent keeps the mantissa's units and moves the point, and any
      other sign multiplies the units by 10^exponent once for the value and
      once for the longer scale. */
  lemma ExpandExact(p: SciParts)
    requires IsNumeric(p.mantissa)
    ensures var m := ParseDecimal(p.mantissa);
            p.negativeExponent ==> Expand(p) == Decimal(m.units, m.scale + p.exponent)
    ensures var m := ParseDecimal(p.mantissa);
            !p.negativeExponent ==>
              Expand(p) == Decimal(Pow(10, p.exponent) * m.units * Pow(10, p.exponent), m.scale + p.exponent)
  {
    DecimalsLengthIsScale(p.mantissa);
    ExpandAtExact(ParseDecimal(p.mantissa), p.negativeExponent, p.exponent, GetDecimalsLength(p.mantissa));
  }

  /** The number the branch hands on is exactly the mantissa times or
      divided by 10^exponent, whether or not trailing zeroes are
      trimmed. */
  lemma ConvertScientificValue(p: SciParts, trim: bool)
    requires IsNumeric(p.mantissa)
    ensures p.negativeExponent ==>
              RealValue(ConvertScientific(p, trim)) == OverPow10(RealValue(ParseDecimal(p.mantissa)), p.exponent)
    ensures !p.negativeExponent ==>
              RealValue(ConvertScientific(p, trim)) == TimesPow10(RealValue(ParseDecimal(p.mantissa)), p.exponent)
  {
    DecimalsLengthIsScale(p.mantissa);
    ExpandAtValue(ParseDecimal(p.mantissa), p.negativeExponent, p.exponent, GetDecimalsLength(p.mantissa));
  }

  /** Without trimming, the number's text has exactly
      exponent + decimals(mantissa) digits after the '.'; with trimming,
      no more than that, and no trailing zero. */
  lemma ConvertScientificScale(p: SciParts, trim: bool)
    requires IsNumeric(p.mantissa)
    ensures var n := p.exponent + GetDecimalsLength(p.mantissa);
            var t := Render(ConvertScientific(p, trim));
            IsNumeric(t) &&
            (!trim ==> GetDecimalsLength(t) == n) &&
            (trim ==> GetDecimalsLength(t) <= n && IsTrimmed(ConvertScientific(p, trim)))
  {
    ParseRender(ConvertScientific(p, trim));
    DecimalsLengthIsScale(Render(ConvertScientific(p, trim)));
  }
}

=== FILE: wrappers.dfy ===
/** Failure-carrying results shared by every operation of the model.
    The library reports misuse by throwing `InvalidArgumentException`
    (or, from the decimal primitive, a division-by-zero error); here each
    such exit is a value of `Error`. The primitive's constructor rejects
    text that is not a number with a `ValueError`; that exit is
    `MalformedNumber`. */
module Wrappers {

  datatype Option<+T> = None | Some(value: T)

  /** One constructor per distinct exception the modelled code raises. */
  datatype Error =
    | InvalidBase(base: int)          // decBaseHelper: base outside [2, 256]
    | LeftOperandNotInteger           // bitOperatorHelper: left operand has a '.'
    | RightOperandNotInteger          // bitOperatorHelper: right operand has a '.'
    | FactorialOfFraction             // fact: operand has a '.'
    | FactorialOfNegative             // fact: operand starts with '-'
    | NegativeExponent                // powMod: exponent starts with '-'
    | ZeroModulus                     // powMod: modulus trims to "0"
    | DivisionByZero                  // the primitive's division by zero
    | MalformedNumber                 // the primitive's constructor: text that is not a number

  datatype Result<+T> = Ok(value: T) | Err(error: Error)
}
